=== FILE: README.md ===
# Job table and command-line logic of a small job-control shell

A Dafny model of the core of a Unix job-control shell written in C. Three
source files are covered:

- `jobs.c` keeps the job table. Each slot holds a job: a process group, its processes, an aggregate state and the command text shown to the user. Slot 0 is the foreground job.
- `shell.c` turns a token buffer into a job. It consumes redirections, detects pipes, strips a trailing `&` and registers the forked child.
- `command.c` dispatches the six built-ins (`quit`, `cd`, `jobs`, `fg`, `bg`, `kill`) and enumerates the `PATH` candidates for `execve`.

The model is functional. The job table is an immutable `seq<Job>`, and a slot is free when its `pgid` is 0. Every C routine becomes a pure function, or a method where the C code has a loop worth keeping. That function returns the new table together with whatever the routine prints, signals or returns. Operating-system calls are not performed. They become values or parameters:

- a signal to send is a `Delivery`;
- a `watchjobs` line is a `Report`;
- `chdir` and `execve` success are predicates supplied by the caller;
- `open` is named by its file token and mode;
- the pid returned by `fork` is a parameter.

Modules, one per file:

- `Base` (`base.dfy`): `Option`.
- `WaitStatus` (`wait_status.dfy`): the glibc encoding of the `wait` status word: `WIFEXITED`, `WIFSIGNALED`, `WIFSTOPPED` and `WIFCONTINUED`.
- `Strings` (`strings.dfy`): joining words, `strcspn`, and `atoi` as leading-digit parsing.
- `Jobs` (`jobs.dfy`): `jobs.c`.
- `Command` (`command.dfy`): `command.c`.
- `Shell` (`shell.dfy`): `shell.c`.

Constants: `FG` is 0. `BG` is 1, because its definition lives in `shell.h`, which is not part of this model. The state of a zero-filled slot is the abstract constant `Jobs.ZeroState`, since the numeric codes of the states are also in `shell.h`. The `assert`s of `jobs.c` (lines 110, 121, 140, 156) are preconditions.

## Model

| member | source | states |
|---|---|---|
| Jobs.InitJobs | jobs.c:286-289 | the shell starts with exactly one slot, the foreground slot, and it is free |
| Jobs.FirstFree | jobs.c:78-80 | the slot found is the first free one at or after the start, and every slot before it is occupied; nothing is found only when no slot from the start on is free |
| Jobs.AllocJob | jobs.c:75-85 | the slot is the lowest free background slot. When none is free, it is the old table length and the table grows by exactly one zeroed slot; otherwise the table is unchanged |
| Jobs.AllocSlotUnique | jobs.c:75-85 | the allocation rule determines a single slot |
| Jobs.AddJob | jobs.c:95-106 | a foreground job goes to slot 0 and a background job to the slot allocjob picks. The slot gets the pgid, state RUNNING, no processes and no command; every other slot is unchanged |
| Jobs.MkCommand | jobs.c:126-136 | the text is the previous text and " \| " (when there was one) followed by the words joined by single spaces |
| Jobs.AddProc | jobs.c:138-150 | exactly one process (pid, RUNNING, exit code -1) is appended. Earlier processes, pgid, state and all other slots are unchanged, and the command text grows as mkcommand says |
| Jobs.CommandOfPipeline | jobs.c:126-136 | adding the stages of a pipeline one after another gives the stage texts joined by " \| " |
| Jobs.CommandOfStagesAfter | jobs.c:128-135 | appending further stages to an existing text extends the " \| "-joined list |
| Jobs.ExitCodeOfNewProcess | jobs.c:70-73 | exitcode reads the last process: right after addproc that is the new process, which has not reported, so the job's code is -1 until an event sets it (`Jobs.ExitEventSetsAllCodes`) |
| Jobs.DelJob | jobs.c:108-117 | only a FINISHED job can be deleted. The slot becomes free, with no processes and no command |
| Jobs.DeletedSlotIsReused | jobs.c:78-80 | after a background slot is deleted, the next allocation takes that slot or a lower one |
| Jobs.MoveJob | jobs.c:119-124 | the destination must be free. It receives the source record unchanged, the source becomes the all-zero record, and every other slot is unchanged |
| Jobs.MoveJobBack | jobs.c:119-124 | moving a job to an all-zero slot and back restores the table |
| Jobs.JobState | jobs.c:154-168 | as written: the stored state is returned, and the slot is deleted exactly when that state is FINISHED. The caller's status is returned untouched |
| Jobs.JobStateIntended | jobs.c:152-168 | corrected: for a FINISHED job the status handed back is the job's exit code. Otherwise the table and the caller's status are unchanged |
| Jobs.JobStateLosesStatus | jobs.c:163 | for a job that exited with 1, the as-written query hands back 0 where the intended one hands back 256 |
| Jobs.LatestLive | jobs.c:184-185 | the downward scan stops at the highest slot at or below its start that is not FINISHED, or at 0 |
| Jobs.ResumeSlotIsLatest | jobs.c:182-186 | with no slot given, the target is the highest live background slot, or 0 when there is none |
| Jobs.ResumeJob | jobs.c:180-202 | it succeeds iff the target slot exists and is not FINISHED. On failure the table is unchanged and nothing is sent. On success SIGCONT goes to the group and the job is RUNNING, either in place or moved to slot 0, with its old slot zeroed |
| Jobs.NegativeSlotPassesKillRange | jobs.c:207 | as written, slot -1 passes the range check of killjob although no such slot exists |
| Jobs.KillJob | jobs.c:205-215 | corrected: SIGTERM is sent, with kill() on the pgid, iff the slot exists and is not FINISHED |
| Jobs.WatchFrom | jobs.c:220-254 | the reporting loop frees exactly the occupied FINISHED background slots when the filter shows FINISHED, and leaves every other slot unchanged |
| Jobs.WatchSlotReport | jobs.c:227-253 | one occupied slot gives one report when the filter shows its state and none otherwise |
| Jobs.WatchFromDescribes | jobs.c:218-255 | every report names an occupied background slot the filter shows, and describes that slot as it was before reaping |
| Jobs.WatchFromIncreasing | jobs.c:220 | reports come in increasing slot order |
| Jobs.WatchFromListsAll | jobs.c:220-253 | every occupied background slot the filter shows is reported |
| Jobs.WatchJobs | jobs.c:218-255 | watchjobs: reaps exactly the FINISHED jobs shown, and reports each shown job once, in slot order, as it was before reaping |
| Jobs.SetExitCodes | jobs.c:43-50 | every process of the job receives the status, and nothing else changes |
| Jobs.Reap | jobs.c:37-61 | an empty job becomes FINISHED. A job whose first process has the pid becomes FINISHED with the status stored on exit or signal, STOPPED on a stop and RUNNING on a continue. Any other job is unchanged, and pgid and command never change |
| Jobs.ApplyEvent | jobs.c:34-63 | one status event applies that rule to every slot of the table |
| Jobs.ApplyEvents | jobs.c:32-64 | a sequence of events never changes pgids or commands |
| Jobs.ExitEventSetsAllCodes | jobs.c:43-51 | after an exit event for a job's first pid, the job is FINISHED and both its first and last process carry the status |
| Jobs.FinishMonitor | jobs.c:276-278 | the foreground job moves to the slot allocjob picks, which may be new, and slot 0 becomes all-zero |
| WaitStatus.ExitStatus | jobs.c:47 | the status of exit(code) takes the handler's exit branch only (WIFEXITED holds, and WIFSIGNALED, WIFSTOPPED and WIFCONTINUED do not), and WEXITSTATUS reads the code back |
| WaitStatus.Exclusive | jobs.c:47-59 | the four status tests of the handler never hold together, so at most one of its branches fires |
| Strings.Span | command.c:135 | strcspn: the prefix holds no separator and ends at one or at the end |
| Strings.AppendWordsJoin | jobs.c:131-135 | the append loop of mkcommand yields the words joined by single spaces |
| Strings.Atoi | command.c:91 | only a leading minus sign yields a negative number, and a string of digits reads as its decimal value |
| Strings.LeadingDigits | command.c:91 | the longest run of decimal digits at the start of the text |
| Strings.AtoiShowNat | command.c:52 | atoi reads back a number written in decimal, with or without a minus sign |
| Command.FindFrom | command.c:114-119 | the entry found is the first one from the start with that name; nothing is found iff no entry has it |
| Command.BuiltinNames | command.c:102-110 | the built-ins are exactly quit, cd, jobs, fg, bg and kill, and each name selects its own handler |
| Command.FindUnfolded | command.c:102-119 | the lookup tries the names in table order |
| Command.SlotArgReadsNumber | command.c:52 | fg and bg use -1 without an argument, and the number given otherwise |
| Command.DoChdir | command.c:22-34 | cd goes to HOME without an argument and to the argument otherwise. It returns 0 iff chdir succeeds and 1 otherwise, and leaves the table alone |
| Command.CdAloneGoesHome | command.c:24-27 | `cd` with no argument changes to the directory HOME names, exactly as `cd` given that directory does; with an argument HOME is not consulted |
| Command.DoResume | command.c:50-77 | fg and bg always return 0. If the resolved slot is not live, they report the job as not found and change nothing. Otherwise SIGCONT goes to its group. bg marks the job RUNNING in place. fg moves it, RUNNING, to slot 0 and zeroes its old slot. No other slot changes |
| Command.DoKill | command.c:84-100 | kill returns -1 iff the argument is missing or does not start with %. Otherwise it returns 0 and sends SIGTERM iff the slot after % is live |
| Command.KillPercentSlot | command.c:88-99 | `kill %n` returns 0 and sends SIGTERM to the pgid of slot n if slot n is live; otherwise it reports the job as not found. The table never changes |
| Command.RunBuiltin | command.c:22-100 | quit alone ends the shell. Only jobs, fg and bg can change the table, and kill is the only handler that returns a negative code (-1, with the table unchanged) |
| Command.BuiltinCommand | command.c:112-123 | argv[0] is a built-in iff it is one of the six names; quit ends the shell, and for cd, jobs, fg, bg and kill the result is exactly that handler's result on the remaining arguments. The result is >= 0 (or quit) iff the line is one of quit, cd, jobs, fg, bg, or kill with a %n argument; any other name gives -1 |
| Command.PathDirs | command.c:132-154 | the PATH components tried are non-empty and contain no colon |
| Command.PathDirsJoin | command.c:135-153 | the components of a colon-joined list of non-empty directories are those directories, in order |
| Command.PathDirsStopAtEmpty | command.c:135 | the search stops at the first empty component; later ones are never tried |
| Command.Attempts | command.c:129-159 | a name containing / or a missing PATH gives the single attempt argv. Otherwise there is one attempt per PATH component, in order, with argv[0] replaced by dir/name and the rest of argv unchanged |
| Command.AttemptsFollowPath | command.c:135-147 | for a PATH joined from directories, the attempts are exactly dir/name for each directory in order |
| Command.FirstRunnable | command.c:135-154 | the attempt chosen is the first that execve accepts |
| Command.ExternalCommand | command.c:125-163 | the image is replaced by the first accepted attempt. It fails with EXIT_FAILURE, naming the original argv[0], iff no attempt is accepted |
| Shell.RoleShape | shell.c:24-49 | an operator is followed by its file name, a file name follows an operator, and a kept token is never an operator |
| Shell.NoRedirKeepsAll | shell.c:45-48 | without operators every token is kept |
| Shell.LastOpenIsLast | shell.c:26-43 | with several redirections of one kind, the last one's file is the descriptor kept |
| Shell.LastOpenNone | shell.c:26-43 | without a redirection of that kind, the caller's descriptor is kept |
| Shell.DoRedirAsWritten | shell.c:17-52 | as written: the returned count is the number of tokens that are neither an operator nor an operator's file name. Each operator and its file name become T_NULL, other tokens keep their positions, and NULL is written at the count |
| Shell.LeadingRedirectionLosesCommand | shell.c:50-51 | on `< in cat` the as-written buffer starts with a NULL and the word `cat` is not in front of the terminating NULL |
| Shell.AsWrittenAgreesOnTrailingRedirections | shell.c:45-51 | when every redirection follows the words, the as-written buffer already holds the kept tokens in front of its NULL |
| Shell.DoRedir | shell.c:17-52 | corrected: same count and descriptors, and the kept tokens, in order, fill the buffer up to the NULL at the count |
| Shell.KeptTokensConsumeRedirections | shell.c:26-48 | no kept token is a redirection operator, and every kept token comes from the line |
| Shell.NoRedirectionKeepsLine | shell.c:45-58 | a line without redirections is kept whole and leaves both descriptors at the caller's -1 |
| Shell.IsPipeline | shell.c:214-220 | true iff some token among the first n is T_PIPE |
| Shell.StripBackground | shell.c:228-232 | a trailing T_BGJOB is removed (count down by one, its entry set to NULL) and makes the job background, whatever comes before it. Otherwise the tokens are unchanged and the job is foreground |
| Shell.Eval | shell.c:222-247 | nothing runs for zero tokens after the marker is stripped. A line with a pipe goes to do_pipeline, and any other goes to do_job with the stripped buffer and bg flag |
| Shell.AsWrittenArgv | shell.c:61-62 | as written: after do_redir, the words in front of the buffer's first NULL are exactly the words in front of the first redirection, and there is at least one |
| Shell.AsWrittenArgvIsPrefix | shell.c:45-51 | the as-written argument vector is the compacted one cut at the first redirection |
| Shell.RedirectionDropsLaterWords | shell.c:45-51 | on `cat < in foo` the as-written argument vector is `cat`, and the compacted one is `cat foo` |
| Shell.ArgvOfCommand | shell.c:45-48 | corrected: the compacted argument vector has one word per kept token |
| Shell.RedirectedArgv | shell.c:61-62 | corrected: after the compacting do_redir, the words before its NULL are the compacted argument vector |
| Shell.Register | shell.c:91-92 | the new job's group and only process are the child, RUNNING, with the joined argv as its command; the table grows by one slot exactly when the slot allocated is the old length |
| Shell.DoJob | shell.c:56-101 | as written: the line stays in the shell iff it is quit, cd, jobs, fg, bg, or kill with %n. The outcome is then exactly builtin_command's, and the job table is only what that built-in left; nothing is registered. Otherwise one job is registered at slot 0 or the allocated slot, the table grows by one slot only when that slot is new, every other slot is unchanged, and -1 is returned. The child and the job's command text get the words in front of the first redirection, and the child gets the last redirections |
| Shell.DoJobIntended | shell.c:56-101 | corrected: the same, built-in outcome included, except that the child and the command text get every word of the line that is not a redirection |

## Left out

- Operating-system effects are values or parameters and are never performed: `fork`, `execve`, `setpgid`, `dup2`, `pipe`, `open`, `close`, `kill`, `killpg`, `chdir`, `getenv`. A failing `open` (the `Open` wrapper aborts) is not modelled.
- The following are concurrency or control transfer and are not modelled: signal masking, `Sigsuspend`, asynchronous SIGCHLD delivery, the `waitpid` loop of the handler, and the `sigsetjmp`/`siglongjmp` of the main loop. Only the table update of one status event is modelled (`Jobs.ApplyEvent`).
- `tcsetpgrp` and the wait loop of `monitorjob` (jobs.c:259-275) depend on signal delivery. Only its final relocation is modelled (`Jobs.FinishMonitor`).
- `shutdownjobs` (jobs.c:298-325) waits for children, and `do_quit` exits. The model stops at the `QuitShell` outcome.
- `do_pipeline` and `do_stage` (shell.c:105-212) are fd and fork plumbing with broken stage-boundary arithmetic. `Shell.Eval` only dispatches to them. `Jobs.CommandOfPipeline` states what repeated `mkcommand` calls build, as one call per stage would; it is a property of `mkcommand`, not of `do_pipeline`, which as written never registers a job.
- The following I/O is not modelled: `printf` formatting of reports, the "job not found" messages, `readline` and history. A report is the data it prints.
- The tokenizer is not part of this model. The token buffer is given, and T_NULL is taken to be the NULL entry.
- `Jobs.AllocJob`: the slot `realloc` adds is uninitialised in C. The model fills it with the all-zero record, which every caller overwrites.
- `Jobs.ResumeJob`: for `fg` the model stops after moving the job to slot 0. The `monitorjob` call that follows is left out, as above.
- `Shell.DoJob`: for a foreground job, the `monitorjob` call after registration is left out, and so is the child side after `fork`.
- `Shell.DoJob`: requires the line to start with a word. When it starts with a redirection, as-written do_redir leaves a NULL argv[0], and `strcmp` in builtin_command (command.c:116) dereferences it, which crashes. The model does not describe that crash.
- `Shell.DoJob`, `Shell.DoJobIntended`: the line may hold only words and `<`/`>` redirections. A line with a `|` never reaches do_job, because eval sends it to do_pipeline (shell.c:236-239). A `&` that is not last does reach do_job, and then builtin_command as a token pointer that is not a string. `Shell.Eval` passes such a line on, but do_job is not modelled for it.
- `Shell.DoJob`, `Shell.DoJobIntended`: `child` is required to be positive, the pid `fork` returns to the parent. The child's side (pid 0) and a failing `fork` are not modelled.
- `Command.DoKill`: uses the corrected `Jobs.KillJob`, so `kill %-1` reports "job not found" instead of reading `jobs[-1]` as jobs.c:207 does (see Findings).
- `Strings.Atoi`: parses optional spaces, a sign and the leading decimal digits. Overflow of `int` is not modelled.
- `Command.ExternalCommand`: whether `execve` accepts a path is a caller-supplied predicate. `environ` is not modelled.

## Findings

| source | as written | input that shows it | evidently intended | confidence | as-written member | corrected member |
|---|---|---|---|---|---|---|
| jobs.c:163 | the exit code is assigned to the local pointer `statusp` instead of being stored through it, so the caller's status variable is never written | a FINISHED job whose first process called exit(1) (status 256), queried by monitorjob with its uninitialised exitcode | the caller receives 256 through `*statusp` | high; not executed | Jobs.JobStateLosesStatus | Jobs.JobStateIntended |
| jobs.c:207 | killjob checks only the upper bound of the slot, so a negative slot reads `jobs[-1]` | `kill %-1` (atoi gives -1) | a negative slot is "job not found" | medium; not executed | Jobs.NegativeSlotPassesKillRange | Jobs.KillJob |
| shell.c:45-51 | kept tokens stay in place while NULL is written at the kept count, so a redirection before a word leaves a T_NULL or NULL in front of it. The NULL can also land on a kept word | `< in cat`: the count is 1 and the buffer becomes NULL, NULL, `cat`, NULL, so builtin_command compares a NULL argv[0]; `cat < in foo` drops `foo` | each kept token moves down to the index that counts it, so the count of tokens before the NULL is the command without its redirections | medium; not executed | Shell.LeadingRedirectionLosesCommand | Shell.DoRedir |

`Shell.DoJob` models do_job as written, on top of `Shell.DoRedirAsWritten`. Its argument vector and job text stop at the first redirection (`Shell.RedirectionDropsLaterWords`). `Shell.DoJobIntended` is the same routine on the corrected `Shell.DoRedir`. The two agree on lines whose redirections all follow the words (`Shell.AsWrittenAgreesOnTrailingRedirections`, `Shell.AsWrittenArgvIsPrefix`). `Jobs.KillJob` is the version `Command.DoKill` uses.

=== FILE: base.dfy ===
/** Small shared vocabulary: the optional value that stands for a nullable
    C pointer (a job's command text, an unset environment variable). */
module Base {

  datatype Option<+T> = None | Some(value: T)

}

=== FILE: command.dfy ===
/** The built-in commands (command.c): the name table and its dispatch, the
    argument handling of cd, fg, bg and kill, and the candidate paths that
    external_command hands to execve.  System calls (chdir, execve) are
    parameters: each says whether the call succeeds for a given argument. */
module Command {
  import opened Base
  import Strings
  import Jobs

  datatype Builtin = Quit | ChangeDir | ListJobs | Foreground | Background | KillJob

  /** The `builtins` table, in source order. */
  const Builtins: seq<(string, Builtin)> :=
    [("quit", Quit), ("cd", ChangeDir), ("jobs", ListJobs),
     ("fg", Foreground), ("bg", Background), ("kill", KillJob)]

  /** The scan of builtin_command from entry i: the first entry whose name
      equals `name`. */
  function FindFrom(name: string, i: nat): (r: Option<Builtin>)
    requires i <= |Builtins|
    ensures r.None? <==> forall k :: i <= k < |Builtins| ==> Builtins[k].0 != name
    ensures r.Some? ==> exists k :: i <= k < |Builtins| && Builtins[k] == (name, r.value)
                                   && forall m :: i <= m < k ==> Builtins[m].0 != name
    decreases |Builtins| - i
  {
    if i == |Builtins| then None
    else if Builtins[i].0 == name then Some(Builtins[i].1)
    else FindFrom(name, i + 1)
  }

  function FindBuiltin(name: string): Option<Builtin>
  {
    FindFrom(name, 0)
  }

  /** Exactly six names are built in, each bound to its own handler. */
  lemma BuiltinNames(name: string)
    ensures FindBuiltin(name).Some? <==> name in {"quit", "cd", "jobs", "fg", "bg", "kill"}
    ensures FindBuiltin("quit") == Some(Quit) && FindBuiltin("cd") == Some(ChangeDir)
    ensures FindBuiltin("jobs") == Some(ListJobs) && FindBuiltin("fg") == Some(Foreground)
    ensures FindBuiltin("bg") == Some(Background) && FindBuiltin("kill") == Some(KillJob)
  {
    FindUnfolded(name);
    FindUnfolded("quit");
    FindUnfolded("cd");
    FindUnfolded("jobs");
    FindUnfolded("fg");
    FindUnfolded("bg");
    FindUnfolded("kill");
  }

  lemma FindUnfolded(name: string)
    ensures FindBuiltin(name)
            == if name == "quit" then Some(Quit)
               else if name == "cd" then Some(ChangeDir)
               else if name == "jobs" then Some(ListJobs)
               else if name == "fg" then Some(Foreground)
               else if name == "bg" then Some(Background)
               else if name == "kill" then Some(KillJob)
               else None
  {
    assert FindFrom(name, 0) == if name == "quit" then Some(Quit) else FindFrom(name, 1);
    assert FindFrom(name, 1) == if name == "cd" then Some(ChangeDir) else FindFrom(name, 2);
    assert FindFrom(name, 2) == if name == "jobs" then Some(ListJobs) else FindFrom(name, 3);
    assert FindFrom(name, 3) == if name == "fg" then Some(Foreground) else FindFrom(name, 4);
    assert FindFrom(name, 4) == if name == "bg" then Some(Background) else FindFrom(name, 5);
    assert FindFrom(name, 5) == if name == "kill" then Some(KillJob) else FindFrom(name, 6);
    assert FindFrom(name, 6) == None;
  }

  /** What a handler did besides returning a code. */
  datatype Effect =
    | NoEffect
    | Sent(delivery: Jobs.Delivery)
    | JobNotFound
    | Listed(reports: seq<Jobs.Report>)
    | ChangedDir(path: Option<string>)

  /** The result of builtin_command: a handler's return value with the table
      it leaves; -1 with errno ENOENT for a name not in the table; or the
      end of the shell (quit never returns). */
  datatype Outcome =
    | Returned(code: int, table: Jobs.Table, effect: Effect)
    | NotBuiltin
    | QuitShell

  /** The integer builtin_command returns. */
  function Code(o: Outcome): int
    requires !o.QuitShell?
  {
    if o.NotBuiltin? then -1 else o.code
  }

  /** The slot argument of fg and bg: atoi of the argument, or -1 without one. */
  function SlotArg(args: seq<string>): int
  {
    if |args| == 0 then -1 else Strings.Atoi(args[0])
  }

  /** `fg n` names slot n. */
  lemma SlotArgReadsNumber(n: nat)
    ensures SlotArg([]) == -1
    ensures SlotArg([Strings.ShowNat(n)]) == n
  {
    Strings.AtoiShowNat(n);
  }

  /** do_chdir: the argument, or HOME without one; 1 when chdir fails. */
  function DoChdir(t: Jobs.Table, args: seq<string>, home: Option<string>,
                   chdir: Option<string> -> bool): (r: Outcome)
    ensures r.Returned? && r.table == t
    ensures r.effect == ChangedDir(if |args| == 0 then home else Some(args[0]))
    ensures r.code == 0 <==> chdir(r.effect.path)
    ensures r.code == 0 || r.code == 1
  {
    var path := if |args| == 0 then home else Some(args[0]);
    Returned(if chdir(path) then 0 else 1, t, ChangedDir(path))
  }

  /** `cd` alone behaves as `cd $HOME` whenever HOME is set. */
  lemma CdAloneGoesHome(t: Jobs.Table, home: string, other: Option<string>, chdir: Option<string> -> bool)
    ensures DoChdir(t, [], Some(home), chdir) == DoChdir(t, [home], other, chdir)
  {
  }

  /** do_fg and do_bg: resume the slot named by the argument (the latest
      live one without it); 0 is returned whether or not it was found. */
  function DoResume(t: Jobs.Table, args: seq<string>, fg: bool): (r: Outcome)
    requires Jobs.Valid(t)
    requires fg && Jobs.Live(t, Jobs.ResumeSlot(t, SlotArg(args))) ==> t[Jobs.FG].Free()
    ensures r.Returned? && r.code == 0
    ensures var k := Jobs.ResumeSlot(t, SlotArg(args));
            !Jobs.Live(t, k) ==> r.effect == JobNotFound && r.table == t
    ensures var k := Jobs.ResumeSlot(t, SlotArg(args));
            Jobs.Live(t, k) ==> r.effect == Sent(Jobs.ToGroup(t[k].pgid, Jobs.Sigcont)) && |r.table| == |t|
    ensures var k := Jobs.ResumeSlot(t, SlotArg(args));
            Jobs.Live(t, k) && !fg ==> r.table == t[k := t[k].(state := Jobs.Running)]
    ensures var k := Jobs.ResumeSlot(t, SlotArg(args));
            Jobs.Live(t, k) && fg ==>
              && r.table[k] == Jobs.ZeroJob
              && (k != Jobs.FG ==> r.table[Jobs.FG] == t[k].(state := Jobs.Running))
              && forall m :: 0 < m < |t| && m != k ==> r.table[m] == t[m]
  {
    var (found, t', sent) := Jobs.ResumeJob(t, SlotArg(args), fg);
    Returned(0, t', if found then Sent(sent.value) else JobNotFound)
  }

  /** The argument of `kill %n`: present and starting with '%'. */
  predicate PercentArg(args: seq<string>) {
    |args| > 0 && |args[0]| > 0 && args[0][0] == '%'
  }

  /** do_kill: without an argument, or when it does not start with '%', the
      handler returns -1 (so the caller runs `kill` as a program); otherwise
      it parses the slot after '%', asks killjob to signal it, returns 0. */
  function DoKill(t: Jobs.Table, args: seq<string>): (r: Outcome)
    ensures r.Returned? && r.table == t
    ensures r.code == -1 <==> !PercentArg(args)
    ensures r.code == -1 || r.code == 0
    ensures r.code == -1 ==> r.effect == NoEffect
    ensures r.code == 0 ==>
              var k := Strings.Atoi(args[0][1..]);
              if Jobs.Live(t, k) then r.effect == Sent(Jobs.ToProcess(t[k].pgid, Jobs.Sigterm))
              else r.effect == JobNotFound
  {
    if |args| == 0 then Returned(-1, t, NoEffect)
    else if |args[0]| == 0 || args[0][0] != '%' then Returned(-1, t, NoEffect)
    else
      match Jobs.KillJob(t, Strings.Atoi(args[0][1..]))
      case Some(d) => Returned(0, t, Sent(d))
      case None => Returned(0, t, JobNotFound)
  }

  /** `kill %n` sends SIGTERM to the job in slot n exactly when it is live. */
  lemma KillPercentSlot(t: Jobs.Table, n: nat)
    ensures DoKill(t, ["%" + Strings.ShowNat(n)])
            == if Jobs.Live(t, n) then Returned(0, t, Sent(Jobs.ToProcess(t[n].pgid, Jobs.Sigterm)))
               else Returned(0, t, JobNotFound)
  {
    var arg := "%" + Strings.ShowNat(n);
    assert arg[1..] == Strings.ShowNat(n);
    Strings.AtoiShowNat(n);
  }

  /** What builtin_command needs of the table for the handler it dispatches
      to: movejob's free foreground slot for fg, readable exit codes for jobs. */
  predicate Ready(argv: seq<string>, t: Jobs.Table)
    requires |argv| > 0 && Jobs.Valid(t)
  {
    && (argv[0] == "fg" ==> (Jobs.Live(t, Jobs.ResumeSlot(t, SlotArg(argv[1..]))) ==> t[Jobs.FG].Free()))
    && (argv[0] == "jobs" ==> Jobs.Reportable(t, Jobs.All))
  }

  /** The handler a table entry points to, run on the arguments after the
      command name. */
  function RunBuiltin(b: Builtin, args: seq<string>, t: Jobs.Table, home: Option<string>,
                      chdir: Option<string> -> bool): (r: Outcome)
    requires Jobs.Valid(t)
    requires b == Foreground ==> (Jobs.Live(t, Jobs.ResumeSlot(t, SlotArg(args))) ==> t[Jobs.FG].Free())
    requires b == ListJobs ==> Jobs.Reportable(t, Jobs.All)
    ensures r.QuitShell? <==> b == Quit
    ensures !r.NotBuiltin?
    ensures r.Returned? ==> r.code >= -1
    ensures r.Returned? && b != ListJobs && b != Foreground && b != Background ==> r.table == t
    ensures r.Returned? && r.code < 0 ==> b == KillJob && r.table == t
    ensures b == KillJob ==> r.Returned? && (r.code >= 0 <==> PercentArg(args))
  {
    match b
    case Quit => QuitShell
    case ChangeDir => DoChdir(t, args, home, chdir)
    case ListJobs =>
      var (t', reports) := Jobs.WatchJobs(t, Jobs.All);
      Returned(0, t', Listed(reports))
    case Foreground => DoResume(t, args, true)
    case Background => DoResume(t, args, false)
    case KillJob => DoKill(t, args)
  }

  /** The lines do_job finishes inside the shell: quit, cd, jobs, fg and bg
      always, and kill when its argument has the form %n; for every other
      line builtin_command returns -1 and the command is forked. */
  predicate RunsInShell(argv: seq<string>) {
    && |argv| > 0
    && (argv[0] in {"quit", "cd", "jobs", "fg", "bg"} || (argv[0] == "kill" && PercentArg(argv[1..])))
  }

  /** builtin_command: run the handler of the first entry named argv[0] on
      the remaining arguments, or return -1 (ENOENT) when none matches. */
  function BuiltinCommand(argv: seq<string>, t: Jobs.Table, home: Option<string>,
                          chdir: Option<string> -> bool): (r: Outcome)
    requires |argv| > 0 && Jobs.Valid(t)
    requires Ready(argv, t)
    ensures r.NotBuiltin? <==> argv[0] !in {"quit", "cd", "jobs", "fg", "bg", "kill"}
    ensures r.QuitShell? <==> argv[0] == "quit"
    ensures r.Returned? && argv[0] != "jobs" && argv[0] != "fg" && argv[0] != "bg" ==> r.table == t
    ensures !r.QuitShell? && Code(r) < 0 ==> r.NotBuiltin? || (argv[0] == "kill" && r.table == t)
    ensures !r.QuitShell? ==> Code(r) >= -1
    ensures RunsInShell(argv) <==> r.QuitShell? || Code(r) >= 0
    ensures argv[0] == "cd" ==> r == DoChdir(t, argv[1..], home, chdir)
    ensures argv[0] == "jobs" ==>
              r == Returned(0, Jobs.WatchJobs(t, Jobs.All).0, Listed(Jobs.WatchJobs(t, Jobs.All).1))
    ensures argv[0] == "fg" ==> r == DoResume(t, argv[1..], true)
    ensures argv[0] == "bg" ==> r == DoResume(t, argv[1..], false)
    ensures argv[0] == "kill" ==> r == DoKill(t, argv[1..])
  {
    FindUnfolded(argv[0]);
    match FindBuiltin(argv[0])
    case None => NotBuiltin
    case Some(b) => RunBuiltin(b, argv[1..], t, home, chdir)
  }

  // ------------------------------------------------------ external_command

  const ExitFailure: int := 1

  /** The directories external_command tries: the ':'-separated components
      of PATH in order, up to (not including) the first empty one. */
  function PathDirs(path: string): (r: seq<string>)
    ensures forall i :: 0 <= i < |r| ==> |r[i]| > 0 && ':' !in r[i]
    decreases |path|
  {
    if |path| == 0 then []
    else
      var k := Strings.Span(path, ':');
      if k == 0 then []
      else [path[..k]] + (if k < |path| then PathDirs(path[k + 1..]) else [])
  }

  /** Directories written as a PATH value are read back one by one. */
  lemma {:induction false} PathDirsJoin(dirs: seq<string>)
    requires forall i :: 0 <= i < |dirs| ==> |dirs[i]| > 0 && ':' !in dirs[i]
    ensures PathDirs(Strings.Join(dirs, ":")) == dirs
  {
    if |dirs| == 1 {
      assert ':' !in dirs[0];
      assert Strings.Span(dirs[0], ':') == |dirs[0]|;
      assert dirs[0][..|dirs[0]|] == dirs[0];
    } else if |dirs| > 1 {
      var s := Strings.Join(dirs, ":");
      assert s == dirs[0] + ":" + Strings.Join(dirs[1..], ":");
      assert ':' !in dirs[0];
      assert s[|dirs[0]|] == ':';
      assert Strings.Span(s, ':') == |dirs[0]|;
      assert s[..|dirs[0]|] == dirs[0];
      assert s[|dirs[0]| + 1..] == Strings.Join(dirs[1..], ":");
      PathDirsJoin(dirs[1..]);
      assert dirs == [dirs[0]] + dirs[1..];
    }
  }

  /** The search stops at the first empty component: what follows it is
      never tried. */
  lemma {:induction false} PathDirsStopAtEmpty(dirs: seq<string>, more: seq<string>)
    requires forall i :: 0 <= i < |dirs| ==> |dirs[i]| > 0 && ':' !in dirs[i]
    ensures PathDirs(Strings.Join(dirs + [""] + more, ":")) == dirs
  {
    var all := dirs + [""] + more;
    var s := Strings.Join(all, ":");
    if |dirs| == 0 {
      assert all == [""] + more;
      if |more| > 0 {
        assert s == "" + ":" + Strings.Join(all[1..], ":");
        assert s[0] == ':';
      }
    } else {
      assert all[1..] == dirs[1..] + [""] + more;
      assert s == dirs[0] + ":" + Strings.Join(all[1..], ":");
      assert ':' !in dirs[0];
      assert s[|dirs[0]|] == ':';
      assert Strings.Span(s, ':') == |dirs[0]|;
      assert s[..|dirs[0]|] == dirs[0];
      assert s[|dirs[0]| + 1..] == Strings.Join(all[1..], ":");
      PathDirsStopAtEmpty(dirs[1..], more);
      assert dirs == [dirs[0]] + dirs[1..];
    }
  }

  /** The argument vectors passed to execve, in order.  Each PATH attempt
      replaces argv[0] by dir + "/" + name; the rest of argv is unchanged. */
  function Attempts(argv: seq<string>, path: Option<string>): (r: seq<seq<string>>)
    requires |argv| > 0
    ensures '/' in argv[0] || path.None? ==> r == [argv]
    ensures '/' !in argv[0] && path.Some? ==>
              |r| == |PathDirs(path.value)|
              && forall i :: 0 <= i < |r| ==> r[i] == [PathDirs(path.value)[i] + "/" + argv[0]] + argv[1..]
  {
    if '/' in argv[0] || path.None? then [argv]
    else
      var dirs := PathDirs(path.value);
      seq(|dirs|, i requires 0 <= i < |dirs| => [dirs[i] + "/" + argv[0]] + argv[1..])
  }

  /** The first attempt from i on for which execve succeeds. */
  function FirstRunnable(attempts: seq<seq<string>>, runs: seq<string> -> bool, i: nat): (r: Option<nat>)
    requires i <= |attempts|
    ensures r.Some? ==> i <= r.value < |attempts| && runs(attempts[r.value])
    ensures r.Some? ==> forall m :: i <= m < r.value ==> !runs(attempts[m])
    ensures r.None? ==> forall m :: i <= m < |attempts| ==> !runs(attempts[m])
    decreases |attempts| - i
  {
    if i == |attempts| then None
    else if runs(attempts[i]) then Some(i)
    else FirstRunnable(attempts, runs, i + 1)
  }

  /** What external_command ends in: the image of the first attempt execve
      accepts, or a failure message naming the original argv[0] (restored
      after every attempt) and exit status EXIT_FAILURE. */
  datatype Exec = Replaced(argv: seq<string>) | Failed(name: string, status: int)

  function ExternalCommand(argv: seq<string>, path: Option<string>, runs: seq<string> -> bool): (r: Exec)
    requires |argv| > 0
    ensures r.Replaced? ==>
              exists i :: 0 <= i < |Attempts(argv, path)| && Attempts(argv, path)[i] == r.argv
                          && runs(r.argv) && forall m :: 0 <= m < i ==> !runs(Attempts(argv, path)[m])
    ensures r.Failed? <==> forall m :: 0 <= m < |Attempts(argv, path)| ==> !runs(Attempts(argv, path)[m])
    ensures r.Failed? ==> r.name == argv[0] && r.status == ExitFailure
  {
    var attempts := Attempts(argv, path);
    match FirstRunnable(attempts, runs, 0)
    case Some(i) => Replaced(attempts[i])
    case None => Failed(argv[0], ExitFailure)
  }

  /** With PATH written from directories d1:...:dn and a bare name, execve
      is tried on d1/name, ..., dn/name in that order, the other arguments
      unchanged. */
  lemma AttemptsFollowPath(dirs: seq<string>, name: string, rest: seq<string>)
    requires forall i :: 0 <= i < |dirs| ==> |dirs[i]| > 0 && ':' !in dirs[i]
    requires '/' !in name
    ensures var r := Attempts([name] + rest, Some(Strings.Join(dirs, ":")));
            |r| == |dirs| && forall i :: 0 <= i < |dirs| ==> r[i] == [dirs[i] + "/" + name] + rest
  {
    PathDirsJoin(dirs);
    assert ([name] + rest)[1..] == rest;
  }

}

=== FILE: jobs.dfy ===
/** The job table of the shell (jobs.c): a growable array of job slots, each
    holding a process group, its processes, an aggregate state and the
    command text.  Slot FG (0) holds the foreground job; background jobs live
    in slots BG and above; a slot whose pgid is 0 is free.  The table is an
    immutable sequence here and every operation returns the new table. */
module Jobs {
  import opened Base
  import WaitStatus
  import Strings

  /** States of jobs and processes.  Their numeric encoding is not modelled. */
  datatype State = Running | Stopped | Finished

  /** The state field of a record cleared with memset (its value depends on
      an encoding this model does not fix). */
  const ZeroState: State

  const FG: nat := 0
  const BG: nat := 1

  /** The exit code of a process whose status has not been received yet. */
  const NoExitCode: int := -1

  datatype Proc = Proc(pid: int, state: State, exitcode: int)

  datatype Job = Job(pgid: int, procs: seq<Proc>, state: State, command: Option<string>)
  {
    predicate Free() {
      pgid == 0
    }
  }

  /** An all-zero record: what calloc and memset leave behind. */
  const ZeroJob: Job := Job(0, [], ZeroState, None)

  /** jobs[0 .. njobmax). */
  type Table = seq<Job>

  /** The table never shrinks below its initial single slot. */
  predicate Valid(t: Table) {
    |t| >= 1
  }

  /** initjobs: one zeroed slot, which is the foreground slot. */
  function InitJobs(): (t: Table)
    ensures Valid(t) && |t| == 1 && t[FG].Free()
  {
    [ZeroJob]
  }

  // ------------------------------------------------------------ allocation

  /** `j` is where allocjob puts a new background job: the lowest free slot
      at or above BG, or one past the end when every such slot is taken. */
  predicate IsAllocSlot(t: Table, j: nat) {
    && BG <= j <= |t|
    && (j < |t| ==> t[j].Free())
    && forall k :: BG <= k < j ==> !t[k].Free()
  }

  /** At most one slot satisfies IsAllocSlot: the choice is determined. */
  lemma AllocSlotUnique(t: Table, a: nat, b: nat)
    requires IsAllocSlot(t, a) && IsAllocSlot(t, b)
    ensures a == b
  {
  }

  /** The first free slot in [from, |t|), scanning upward. */
  function FirstFree(t: Table, from: nat): (r: Option<nat>)
    ensures r.Some? ==> from <= r.value < |t| && t[r.value].Free()
    ensures r.Some? ==> forall k :: from <= k < r.value ==> !t[k].Free()
    ensures r.None? ==> forall k :: from <= k < |t| ==> !t[k].Free()
    decreases |t| - from
  {
    if from >= |t| then None
    else if t[from].Free() then Some(from)
    else FirstFree(t, from + 1)
  }

  /** allocjob: reuse the lowest free background slot, or grow the table by
      exactly one slot and return the old njobmax.  The slot realloc adds is
      uninitialised in C; here it is the zero record (see README). */
  function AllocJob(t: Table): (r: (Table, nat))
    requires Valid(t)
    ensures IsAllocSlot(t, r.1)
    ensures r.1 < |t| ==> r.0 == t
    ensures r.1 == |t| ==> r.0 == t + [ZeroJob]
  {
    match FirstFree(t, BG)
    case Some(j) => (t, j)
    case None => (t + [ZeroJob], |t|)
  }

  /** addjob: the new job goes to slot FG, or to the slot allocjob picks. */
  function AddJob(t: Table, pgid: int, bg: bool): (r: (Table, nat))
    requires Valid(t)
    ensures Valid(r.0) && r.1 < |r.0|
    ensures r.0[r.1] == Job(pgid, [], Running, None)
    ensures !bg ==> r.1 == FG && |r.0| == |t|
    ensures bg ==> IsAllocSlot(t, r.1) && |r.0| == (if r.1 == |t| then |t| + 1 else |t|)
    ensures forall k :: 0 <= k < |t| && k != r.1 ==> r.0[k] == t[k]
  {
    var created := Job(pgid, [], Running, None);
    if bg then
      var (t1, j) := AllocJob(t);
      (t1[j := created], j)
    else
      (t[FG := created], FG)
  }

  // ------------------------------------------------------- command text

  /** mkcommand: " | " after an existing text, then argv's words separated
      by single spaces.  argv[0] must exist (mkcommand appends it blindly). */
  function MkCommand(cmd: Option<string>, argv: seq<string>): (r: string)
    requires |argv| > 0
    ensures r == (if cmd.Some? then cmd.value + " | " else "") + Strings.Join(argv, " ")
  {
    var prefix := if cmd.Some? then cmd.value + " | " else "";
    Strings.AppendWordsJoin(prefix, [argv[0]], argv[1..]);
    assert [argv[0]] + argv[1..] == argv;
    Strings.AppendWords(prefix + argv[0], argv[1..])
  }

  /** addproc (with allocproc): append one RUNNING process with no exit code
      and extend the command text; nothing else in the table changes. */
  function AddProc(t: Table, j: nat, pid: int, argv: seq<string>): (r: Table)
    requires j < |t|
    requires |argv| > 0
    ensures |r| == |t|
    ensures forall k :: 0 <= k < |t| && k != j ==> r[k] == t[k]
    ensures r[j].procs == t[j].procs + [Proc(pid, Running, NoExitCode)]
    ensures |r[j].procs| == |t[j].procs| + 1
    ensures r[j].pgid == t[j].pgid && r[j].state == t[j].state
    ensures r[j].command.Some?
    ensures r[j].command.value
            == (if t[j].command.Some? then t[j].command.value + " | " else "") + Strings.Join(argv, " ")
  {
    var job := t[j];
    t[j := job.(procs := job.procs + [Proc(pid, Running, NoExitCode)],
                command := Some(MkCommand(job.command, argv)))]
  }

  /** The command text after mkcommand has been applied once per stage. */
  function CommandOfStages(cmd: Option<string>, stages: seq<seq<string>>): Option<string>
    requires forall i :: 0 <= i < |stages| ==> |stages[i]| > 0
    decreases |stages|
  {
    if |stages| == 0 then cmd else CommandOfStages(Some(MkCommand(cmd, stages[0])), stages[1..])
  }

  /** Each stage's words joined by single spaces. */
  function StageTexts(stages: seq<seq<string>>): (r: seq<string>)
    ensures |r| == |stages|
    ensures forall i :: 0 <= i < |stages| ==> r[i] == Strings.Join(stages[i], " ")
  {
    seq(|stages|, i requires 0 <= i < |stages| => Strings.Join(stages[i], " "))
  }

  lemma {:induction false} CommandOfStagesAfter(done: seq<string>, stages: seq<seq<string>>)
    requires |done| > 0
    requires forall i :: 0 <= i < |stages| ==> |stages[i]| > 0
    ensures CommandOfStages(Some(Strings.Join(done, " | ")), stages)
            == Some(Strings.Join(done + StageTexts(stages), " | "))
    decreases |stages|
  {
    if |stages| == 0 {
      assert done + StageTexts(stages) == done;
    } else {
      var next := Strings.Join(stages[0], " ");
      Strings.JoinSnoc(done, next, " | ");
      assert MkCommand(Some(Strings.Join(done, " | ")), stages[0]) == Strings.Join(done + [next], " | ");
      CommandOfStagesAfter(done + [next], stages[1..]);
      assert done + [next] + StageTexts(stages[1..]) == done + StageTexts(stages);
    }
  }

  /** A job built stage by stage shows its stages joined by " | ", each
      stage's words joined by single spaces. */
  lemma {:induction false} CommandOfPipeline(stages: seq<seq<string>>)
    requires |stages| > 0
    requires forall i :: 0 <= i < |stages| ==> |stages[i]| > 0
    ensures CommandOfStages(None, stages) == Some(Strings.Join(StageTexts(stages), " | "))
  {
    var first := Strings.Join(stages[0], " ");
    assert MkCommand(None, stages[0]) == Strings.Join([first], " | ");
    CommandOfStagesAfter([first], stages[1..]);
    assert [first] + StageTexts(stages[1..]) == StageTexts(stages);
  }

  // ------------------------------------------------- delete, move, query

  /** exitcode: a pipeline's code is that of its last process. */
  function ExitCode(job: Job): int
    requires |job.procs| > 0
  {
    job.procs[|job.procs| - 1].exitcode
  }

  /** deljob: only a FINISHED job may be deleted; the slot becomes free with
      no processes and no command, and keeps its state. */
  function DelJob(job: Job): (r: Job)
    requires job.state == Finished
    ensures r.Free() && r.procs == [] && r.command == None
    ensures r.state == Finished
  {
    job.(pgid := 0, procs := [], command := None)
  }

  /** A deleted background slot is available again to allocjob. */
  lemma DeletedSlotIsReused(t: Table, j: nat)
    requires Valid(t) && BG <= j < |t| && t[j].state == Finished
    ensures AllocJob(t[j := DelJob(t[j])]).1 <= j
  {
    var t' := t[j := DelJob(t[j])];
    assert t'[j].Free();
  }

  /** movejob: the destination must be free; it receives the source record
      and the source becomes the all-zero record.  When `from == to` the
      memset runs last, so the slot ends up zeroed. */
  function MoveJob(t: Table, from: nat, to: nat): (r: Table)
    requires from < |t| && to < |t|
    requires t[to].Free()
    ensures |r| == |t|
    ensures r[from] == ZeroJob
    ensures from != to ==> r[to] == t[from]
    ensures forall k :: 0 <= k < |t| && k != from && k != to ==> r[k] == t[k]
  {
    t[to := t[from]][from := ZeroJob]
  }

  /** Moving a job to a zeroed slot and back restores the table. */
  lemma MoveJobBack(t: Table, a: nat, b: nat)
    requires a < |t| && b < |t| && a != b
    requires t[b] == ZeroJob
    ensures MoveJob(t, a, b)[a].Free()
    ensures MoveJob(MoveJob(t, a, b), b, a) == t
  {
    var r := MoveJob(MoveJob(t, a, b), b, a);
    assert forall k :: 0 <= k < |t| ==> r[k] == t[k];
  }

  /** jobstate as written: return the stored state and delete the job when it
      is FINISHED.  The statement meant to pass the exit code back assigns to
      the local pointer `statusp`, so the caller's status variable (`status`)
      comes back unchanged.  That statement still reads proc[0]. */
  function JobState(t: Table, j: nat, status: int): (r: (State, Table, int))
    requires j < |t|
    requires t[j].state == Finished ==> |t[j].procs| > 0
    ensures r.0 == t[j].state
    ensures r.2 == status
    ensures |r.1| == |t|
    ensures r.0 == Finished ==> r.1 == t[j := DelJob(t[j])] && r.1[j].Free()
    ensures r.0 != Finished ==> r.1 == t
  {
    var state := t[j].state;
    if state == Finished then (state, t[j := DelJob(t[j])], status) else (state, t, status)
  }

  /** jobstate as its comment intends: a FINISHED job's exit code, taken from
      its last process, reaches the caller. */
  function JobStateIntended(t: Table, j: nat, status: int): (r: (State, Table, int))
    requires j < |t|
    requires t[j].state == Finished ==> |t[j].procs| > 0
    ensures r.0 == t[j].state
    ensures r.0 == Finished ==> r.1 == t[j := DelJob(t[j])] && r.2 == ExitCode(t[j])
    ensures r.0 != Finished ==> r.1 == t && r.2 == status
  {
    var state := t[j].state;
    if state == Finished then (state, t[j := DelJob(t[j])], ExitCode(t[j])) else (state, t, status)
  }

  /** A foreground job that exited with code 1 is reported by jobstate as
      FINISHED, but the caller's status (here 0) is what comes back. */
  lemma JobStateLosesStatus()
    ensures var job := Job(7, [Proc(7, Running, WaitStatus.ExitStatus(1))], Finished, Some("false"));
            var r := JobState([job], 0, 0);
            r.0 == Finished && r.2 == 0 && ExitCode(job) == 256 && r.2 != ExitCode(job)
    ensures var job := Job(7, [Proc(7, Running, WaitStatus.ExitStatus(1))], Finished, Some("false"));
            JobStateIntended([job], 0, 0).2 == 256
  {
  }

  // --------------------------------------------------- resume and kill

  /** The scan of resumejob when no slot is given: from the last slot down
      to (but never below) slot 0, skipping FINISHED slots. */
  function LatestLive(t: Table, k: nat): (r: nat)
    requires k < |t|
    ensures r <= k
    ensures r > 0 ==> t[r].state != Finished
    ensures forall m :: r < m <= k ==> t[m].state == Finished
  {
    if k > 0 && t[k].state == Finished then LatestLive(t, k - 1) else k
  }

  /** The slot resumejob acts on: the given one, or for a negative argument
      the highest slot above 0 that is not FINISHED, else 0. */
  function ResumeSlot(t: Table, j: int): nat
    requires Valid(t)
  {
    if j < 0 then LatestLive(t, |t| - 1) else j
  }

  /** Whether resumejob and killjob find something to act on. */
  predicate Live(t: Table, k: int) {
    0 <= k < |t| && t[k].state != Finished
  }

  /** With no slot given, resumejob picks the most recent live background
      job, or slot 0 when there is none. */
  lemma ResumeSlotIsLatest(t: Table, j: int)
    requires Valid(t) && j < 0
    ensures ResumeSlot(t, j) > 0 ==> Live(t, ResumeSlot(t, j))
    ensures forall m :: ResumeSlot(t, j) < m < |t| ==> t[m].state == Finished
    ensures ResumeSlot(t, j) == 0 ==> forall m :: 0 < m < |t| ==> !Live(t, m)
  {
  }

  datatype Signal = Sigcont | Sigterm

  /** A signal sent by the shell: killpg to a group, or kill to one process. */
  datatype Delivery = ToGroup(pgid: int, sig: Signal) | ToProcess(pid: int, sig: Signal)

  /** resumejob (table effects): resolve the slot, fail with no change when
      it is past the end or FINISHED, otherwise send SIGCONT to the group,
      mark the job RUNNING and, for the foreground, move it to slot 0, which
      movejob insists is free. */
  function ResumeJob(t: Table, j: int, fg: bool): (r: (bool, Table, Option<Delivery>))
    requires Valid(t)
    requires fg && Live(t, ResumeSlot(t, j)) ==> t[FG].Free()
    ensures r.0 <==> Live(t, ResumeSlot(t, j))
    ensures !r.0 ==> r.1 == t && r.2 == None
    ensures r.0 ==> r.2 == Some(ToGroup(t[ResumeSlot(t, j)].pgid, Sigcont))
    ensures r.0 && !fg ==> r.1 == t[ResumeSlot(t, j) := t[ResumeSlot(t, j)].(state := Running)]
    ensures r.0 && fg ==> |r.1| == |t| && r.1[ResumeSlot(t, j)] == ZeroJob
    ensures r.0 && fg && ResumeSlot(t, j) != FG ==> r.1[FG] == t[ResumeSlot(t, j)].(state := Running)
    ensures r.0 && fg ==> forall m :: 0 < m < |t| && m != ResumeSlot(t, j) ==> r.1[m] == t[m]
  {
    var k := ResumeSlot(t, j);
    if k >= |t| || t[k].state == Finished then (false, t, None)
    else
      var t1 := t[k := t[k].(state := Running)];
      var sent := Some(ToGroup(t[k].pgid, Sigcont));
      if fg then (true, MoveJob(t1, k, FG), sent) else (true, t1, sent)
  }

  /** The range test of killjob as written: only the upper bound is checked,
      so a negative slot (from `kill %-1`) passes and jobs[-1] is read. */
  predicate KillRangeAsWritten(t: Table, j: int) {
    !(j >= |t|)
  }

  lemma NegativeSlotPassesKillRange(t: Table)
    ensures KillRangeAsWritten(t, -1)
    ensures !(0 <= -1 < |t|)
  {
  }

  /** killjob with the lower bound restored: send SIGTERM with kill() to the
      process whose id is the job's pgid, unless the slot is out of range or
      FINISHED.  The table never changes. */
  function KillJob(t: Table, j: int): (r: Option<Delivery>)
    ensures r.Some? <==> Live(t, j)
    ensures r.Some? ==> r.value == ToProcess(t[j].pgid, Sigterm)
  {
    if j < 0 || j >= |t| || t[j].state == Finished then None
    else Some(ToProcess(t[j].pgid, Sigterm))
  }

  // ------------------------------------------------------------ watchjobs

  /** The `which` argument of watchjobs: one state, or ALL. */
  datatype Filter = Only(state: State) | All

  predicate Shows(which: Filter, s: State) {
    which == All || which == Only(s)
  }

  /** One line of the report: slot, state, command and, for a FINISHED job,
      the raw status of its FIRST process. */
  datatype Report = Report(slot: nat, state: State, command: Option<string>, status: Option<int>)

  function ReportOf(job: Job, k: nat): Report
    requires job.state == Finished ==> |job.procs| > 0
  {
    Report(k, job.state, job.command,
           if job.state == Finished then Some(job.procs[0].exitcode) else None)
  }

  /** watchjobs reads proc[0] of every FINISHED job it reaps. */
  predicate Reportable(t: Table, which: Filter) {
    forall k :: BG <= k < |t| && !t[k].Free() && t[k].state == Finished && Shows(which, Finished)
      ==> |t[k].procs| > 0
  }

  /** Whether watchjobs reaps slot k: a visited FINISHED job under a filter
      that shows FINISHED. */
  predicate Reaped(t: Table, which: Filter, k: nat)
    requires k < |t|
  {
    BG <= k && !t[k].Free() && t[k].state == Finished && Shows(which, Finished)
  }

  /** The three tests of watchjobs on one occupied slot, in source order. */
  function WatchSlot(job: Job, k: nat, which: Filter): (r: (Job, seq<Report>))
    requires job.state == Finished && Shows(which, Finished) ==> |job.procs| > 0
  {
    var (j1, fin) :=
      if Shows(which, Finished) && job.state == Finished
      then (DelJob(job), [Report(k, Finished, job.command, Some(job.procs[0].exitcode))])
      else (job, []);
    var run := if Shows(which, Running) && j1.state == Running then [Report(k, Running, j1.command, None)] else [];
    var stop := if Shows(which, Stopped) && j1.state == Stopped then [Report(k, Stopped, j1.command, None)] else [];
    (j1, fin + run + stop)
  }

  /** The loop of watchjobs from slot j onward. */
  function WatchFrom(t: Table, which: Filter, j: nat): (r: (Table, seq<Report>))
    requires BG <= j
    requires Reportable(t, which)
    ensures |r.0| == |t|
    ensures forall k :: 0 <= k < |t| ==>
              r.0[k] == (if j <= k && Reaped(t, which, k) then DelJob(t[k]) else t[k])
    decreases |t| - j
  {
    if j >= |t| then (t, [])
    else if t[j].Free() then WatchFrom(t, which, j + 1)
    else
      var (job, reps) := WatchSlot(t[j], j, which);
      var (t2, rest) := WatchFrom(t[j := job], which, j + 1);
      (t2, reps + rest)
  }

  /** What one occupied slot contributes to the report. */
  lemma WatchSlotReport(job: Job, k: nat, which: Filter)
    requires job.state == Finished && Shows(which, Finished) ==> |job.procs| > 0
    ensures Shows(which, job.state) ==> WatchSlot(job, k, which).1 == [ReportOf(job, k)]
    ensures !Shows(which, job.state) ==> WatchSlot(job, k, which).1 == []
  {
  }

  /** Slot k is one the loop from slot j reports. */
  predicate Listed(t: Table, which: Filter, j: nat, k: nat) {
    j <= k < |t| && !t[k].Free() && Shows(which, t[k].state)
  }

  /** Every report names a listed slot and describes that slot as it was. */
  predicate Describes(t: Table, which: Filter, j: nat, reps: seq<Report>)
    requires Reportable(t, which)
  {
    forall i :: 0 <= i < |reps| ==>
      BG <= reps[i].slot && Listed(t, which, j, reps[i].slot)
      && reps[i] == ReportOf(t[reps[i].slot], reps[i].slot)
  }

  predicate Increasing(reps: seq<Report>) {
    forall i, i' :: 0 <= i < i' < |reps| ==> reps[i].slot < reps[i'].slot
  }

  predicate ListsAll(t: Table, which: Filter, j: nat, reps: seq<Report>) {
    forall k :: j <= k < |t| && Listed(t, which, j, k) ==> exists i :: 0 <= i < |reps| && reps[i].slot == k
  }

  /** One step of the watchjobs loop at an occupied slot j: the slot's own
      report (or none) goes in front of the reports of the later slots,
      which see the table with slot j updated and nothing else changed. */
  lemma WatchFromStep(t: Table, which: Filter, j: nat)
    requires BG <= j < |t| && !t[j].Free()
    requires Reportable(t, which)
    ensures var t1 := t[j := WatchSlot(t[j], j, which).0];
            && Reportable(t1, which)
            && (forall k :: j < k < |t| ==> t1[k] == t[k])
            && WatchFrom(t, which, j).1 == WatchSlot(t[j], j, which).1 + WatchFrom(t1, which, j + 1).1
    ensures Listed(t, which, j, j) ==> WatchSlot(t[j], j, which).1 == [ReportOf(t[j], j)]
    ensures !Listed(t, which, j, j) ==> WatchSlot(t[j], j, which).1 == []
  {
    WatchSlotReport(t[j], j, which);
  }

  lemma {:induction false} WatchFromDescribes(t: Table, which: Filter, j: nat)
    requires BG <= j
    requires Reportable(t, which)
    ensures Describes(t, which, j, WatchFrom(t, which, j).1)
    decreases |t| - j
  {
    if j >= |t| {
    } else if t[j].Free() {
      WatchFromDescribes(t, which, j + 1);
      assert WatchFrom(t, which, j) == WatchFrom(t, which, j + 1);
    } else {
      WatchFromStep(t, which, j);
      var t1 := t[j := WatchSlot(t[j], j, which).0];
      WatchFromDescribes(t1, which, j + 1);
      var rest := WatchFrom(t1, which, j + 1).1;
      DescribesFrame(t, t1, which, j + 1, rest);
      DescribesCons(t, which, j, WatchSlot(t[j], j, which).1, rest);
    }
  }

  /** Describes depends only on the slots from j on. */
  lemma DescribesFrame(t: Table, t1: Table, which: Filter, j: nat, reps: seq<Report>)
    requires Reportable(t, which) && Reportable(t1, which)
    requires |t1| == |t| && forall k :: j <= k < |t| ==> t1[k] == t[k]
    requires Describes(t1, which, j, reps)
    ensures Describes(t, which, j, reps)
  {
  }

  /** Putting the report of slot j, or nothing, in front of the reports
      from j + 1 on. */
  lemma DescribesCons(t: Table, which: Filter, j: nat, head: seq<Report>, rest: seq<Report>)
    requires Reportable(t, which)
    requires Describes(t, which, j + 1, rest)
    requires head == [] || (BG <= j && Listed(t, which, j, j) && head == [ReportOf(t[j], j)])
    ensures Describes(t, which, j, head + rest)
  {
    var all := head + rest;
    forall i | 0 <= i < |all|
      ensures BG <= all[i].slot && Listed(t, which, j, all[i].slot)
      ensures all[i] == ReportOf(t[all[i].slot], all[i].slot)
    {
      if i >= |head| {
        assert all[i] == rest[i - |head|];
      }
    }
  }

  lemma {:induction false} WatchFromIncreasing(t: Table, which: Filter, j: nat)
    requires BG <= j
    requires Reportable(t, which)
    ensures Increasing(WatchFrom(t, which, j).1)
    decreases |t| - j
  {
    if j >= |t| {
    } else if t[j].Free() {
      WatchFromIncreasing(t, which, j + 1);
      assert WatchFrom(t, which, j) == WatchFrom(t, which, j + 1);
    } else {
      WatchFromStep(t, which, j);
      var t1 := t[j := WatchSlot(t[j], j, which).0];
      WatchFromIncreasing(t1, which, j + 1);
      WatchFromDescribes(t1, which, j + 1);
      IncreasingCons(j, WatchSlot(t[j], j, which).1, WatchFrom(t1, which, j + 1).1);
    }
  }

  /** A report of slot j, or nothing, in front of increasing reports of
      later slots keeps them increasing. */
  lemma IncreasingCons(j: nat, head: seq<Report>, rest: seq<Report>)
    requires Increasing(rest) && forall i :: 0 <= i < |rest| ==> rest[i].slot > j
    requires head == [] || (|head| == 1 && head[0].slot == j)
    ensures Increasing(head + rest)
  {
    var all := head + rest;
    forall i, i' | 0 <= i < i' < |all|
      ensures all[i].slot < all[i'].slot
    {
      if i >= |head| {
        assert all[i] == rest[i - |head|] && all[i'] == rest[i' - |head|];
      } else {
        assert all[i'] == rest[i' - |head|];
      }
    }
  }

  lemma {:induction false} WatchFromListsAll(t: Table, which: Filter, j: nat)
    requires BG <= j
    requires Reportable(t, which)
    ensures ListsAll(t, which, j, WatchFrom(t, which, j).1)
    decreases |t| - j
  {
    if j >= |t| {
    } else if t[j].Free() {
      WatchFromListsAll(t, which, j + 1);
      assert WatchFrom(t, which, j) == WatchFrom(t, which, j + 1);
      assert forall k :: Listed(t, which, j, k) ==> Listed(t, which, j + 1, k);
    } else {
      WatchFromStep(t, which, j);
      var t1 := t[j := WatchSlot(t[j], j, which).0];
      WatchFromListsAll(t1, which, j + 1);
      ListsAllCons(t, t1, which, j, WatchSlot(t[j], j, which).1, WatchFrom(t1, which, j + 1).1);
    }
  }

  /** The reports from j list slot j when it is listed, and every later
      listed slot when the reports after them do. */
  lemma ListsAllCons(t: Table, t1: Table, which: Filter, j: nat, head: seq<Report>, rest: seq<Report>)
    requires j < |t| == |t1| && forall k :: j < k < |t| ==> t1[k] == t[k]
    requires ListsAll(t1, which, j + 1, rest)
    requires Listed(t, which, j, j) ==> |head| > 0 && head[0].slot == j
    ensures ListsAll(t, which, j, head + rest)
  {
    var all := head + rest;
    forall k | j <= k < |t| && Listed(t, which, j, k)
      ensures exists i :: 0 <= i < |all| && all[i].slot == k
    {
      if k == j {
        assert all[0].slot == j;
      } else {
        assert Listed(t1, which, j + 1, k);
        var i :| 0 <= i < |rest| && rest[i].slot == k;
        assert all[|head| + i].slot == k;
      }
    }
  }


  /** watchjobs: visit the occupied slots from BG upward; report each job
      whose state the filter shows, and free each FINISHED one it reports.
      RUNNING and STOPPED jobs, and slot FG, are left unchanged. */
  function WatchJobs(t: Table, which: Filter): (r: (Table, seq<Report>))
    requires Reportable(t, which)
    ensures |r.0| == |t|
    ensures forall k :: 0 <= k < |t| ==> r.0[k] == (if Reaped(t, which, k) then DelJob(t[k]) else t[k])
    ensures Describes(t, which, BG, r.1)
    ensures Increasing(r.1)
    ensures ListsAll(t, which, BG, r.1)
  {
    WatchFromDescribes(t, which, BG);
    WatchFromIncreasing(t, which, BG);
    WatchFromListsAll(t, which, BG);
    WatchFrom(t, which, BG)
  }

  // ------------------------------------------------------ SIGCHLD handler

  function SetExitCodes(ps: seq<Proc>, status: int): (r: seq<Proc>)
    ensures |r| == |ps|
    ensures forall i :: 0 <= i < |ps| ==> r[i] == ps[i].(exitcode := status)
  {
    seq(|ps|, i requires 0 <= i < |ps| => ps[i].(exitcode := status))
  }

  /** The handler's update of one slot for one waitpid result: an empty
      slot is marked FINISHED; otherwise only the first process's pid is
      compared, and on a match the three W* tests run in source order. */
  function Reap(job: Job, pid: int, status: int): (r: Job)
    ensures r.pgid == job.pgid && r.command == job.command
    ensures |job.procs| == 0 ==> r == job.(state := Finished)
    ensures |job.procs| > 0 && job.procs[0].pid != pid ==> r == job
    ensures |job.procs| > 0 && job.procs[0].pid == pid ==>
              && (WaitStatus.IfExited(status) || WaitStatus.IfSignaled(status) ==>
                    r == job.(state := Finished, procs := SetExitCodes(job.procs, status)))
              && (WaitStatus.IfStopped(status) ==> r == job.(state := Stopped))
              && (WaitStatus.IfContinued(status) ==> r == job.(state := Running))
              && ((!WaitStatus.IfExited(status) && !WaitStatus.IfSignaled(status)
                   && !WaitStatus.IfStopped(status) && !WaitStatus.IfContinued(status)) ==> r == job)
  {
    if |job.procs| == 0 then job.(state := Finished)
    else if job.procs[0].pid != pid then job
    else
      WaitStatus.Exclusive(status);
      var ended :=
        if WaitStatus.IfExited(status) || WaitStatus.IfSignaled(status)
        then job.(state := Finished, procs := SetExitCodes(job.procs, status))
        else job;
      var stopped := if WaitStatus.IfStopped(status) then ended.(state := Stopped) else ended;
      if WaitStatus.IfContinued(status) then stopped.(state := Running) else stopped
  }

  /** One iteration of the handler's waitpid loop: every slot is updated. */
  function ApplyEvent(t: Table, pid: int, status: int): (r: Table)
    ensures |r| == |t|
    ensures forall k :: 0 <= k < |t| ==> r[k].pgid == t[k].pgid && r[k].command == t[k].command
    ensures forall k :: 0 <= k < |t| && |t[k].procs| == 0 ==> r[k].state == Finished
    ensures forall k :: 0 <= k < |t| && |t[k].procs| > 0 && t[k].procs[0].pid != pid ==> r[k] == t[k]
    ensures forall k :: 0 <= k < |t| && |t[k].procs| > 0 && t[k].procs[0].pid == pid ==>
              && (WaitStatus.IfExited(status) || WaitStatus.IfSignaled(status) ==>
                    r[k].state == Finished && r[k].procs == SetExitCodes(t[k].procs, status))
              && (WaitStatus.IfStopped(status) ==> r[k] == t[k].(state := Stopped))
              && (WaitStatus.IfContinued(status) ==> r[k] == t[k].(state := Running))
  {
    seq(|t|, k requires 0 <= k < |t| => Reap(t[k], pid, status))
  }

  /** The whole waitpid loop: the events in the order waitpid returns them. */
  function ApplyEvents(t: Table, events: seq<(int, int)>): (r: Table)
    ensures |r| == |t|
    ensures forall k :: 0 <= k < |t| ==> r[k].pgid == t[k].pgid && r[k].command == t[k].command
    decreases |events|
  {
    if |events| == 0 then t
    else ApplyEvents(ApplyEvent(t, events[0].0, events[0].1), events[1..])
  }

  /** exitcode over a job's life: a process just added by addproc has not
      reported, so the job's code is -1 until an event sets it. */
  lemma ExitCodeOfNewProcess(t: Table, j: nat, pid: int, argv: seq<string>)
    requires j < |t| && |argv| > 0
    ensures ExitCode(AddProc(t, j, pid, argv)[j]) == NoExitCode
  {
  }

  /** After an exit or kill event for a job's first process, every process of
      the job holds that status, so proc[0] (which watchjobs prints) and the
      last process (exitcode) agree. */
  lemma ExitEventSetsAllCodes(t: Table, k: nat, status: int)
    requires k < |t| && |t[k].procs| > 0
    requires WaitStatus.IfExited(status) || WaitStatus.IfSignaled(status)
    ensures var r := ApplyEvent(t, t[k].procs[0].pid, status);
            r[k].state == Finished && r[k].procs[0].exitcode == status && ExitCode(r[k]) == status
  {
  }

  // ------------------------------------------------------ monitorjob's end

  /** The relocation at the end of monitorjob: take the slot allocjob
      offers, clear its pgid, and move the foreground record there. */
  function FinishMonitor(t: Table): (r: (Table, nat))
    requires Valid(t)
    ensures IsAllocSlot(t, r.1) && r.1 < |r.0|
    ensures |r.0| == (if r.1 == |t| then |t| + 1 else |t|)
    ensures r.0[FG] == ZeroJob && r.0[r.1] == t[FG]
    ensures forall k :: 0 < k < |t| && k != r.1 ==> r.0[k] == t[k]
  {
    var (t1, c) := AllocJob(t);
    var t2 := t1[c := t1[c].(pgid := 0)];
    (MoveJob(t2, FG, c), c)
  }

}

=== FILE: shell.dfy ===
/** The token logic of the shell (shell.c): consuming redirections in place,
    detecting a pipeline, stripping the trailing background marker, and the
    job-table bookkeeping of a single command.  A token buffer is modelled
    as tokenize returns it: `n` tokens followed by a NULL entry.  open() is
    abstracted: the descriptor it returns is named by the file token and the
    open mode. */
module Shell {
  import opened Base
  import Jobs
  import Command
  import Strings

  /** A token: a word, or an operator marker.  `Null` stands for both the
      NULL terminator and T_NULL, the value redirections are blanked with. */
  datatype Token = Word(text: string) | Input | Output | Pipe | BgJob | Null

  /** The two redirection operators, `<` and `>`. */
  predicate IsRedirOp(tok: Token) {
    tok == Input || tok == Output
  }

  /** `buf` holds `n` tokens followed by NULL. */
  predicate Terminated(buf: seq<Token>, n: nat) {
    n < |buf| && buf[n] == Null
  }

  // -------------------------------------------------------------- do_redir

  /** What do_redir makes of each of the first n tokens: kept, a redirection
      operator, or the file name that follows one. */
  datatype Role = Keep | Op | Arg

  /** Roles of tokens i..n-1, scanning left to right as do_redir does: an
      operator claims the next token as its file name (whatever it is); an
      operator in the last position claims the NULL terminator. */
  function RolesFrom(buf: seq<Token>, n: nat, i: nat): (r: seq<Role>)
    requires n <= |buf| && i <= n
    ensures |r| == n - i
    decreases n - i
  {
    if i == n then []
    else if IsRedirOp(buf[i]) then
      if i + 1 < n then [Op, Arg] + RolesFrom(buf, n, i + 2) else [Op]
    else [Keep] + RolesFrom(buf, n, i + 1)
  }

  /** What do_redir makes of each of the n tokens of the line. */
  function Roles(buf: seq<Token>, n: nat): (r: seq<Role>)
    requires n <= |buf|
    ensures |r| == n
  {
    RolesFrom(buf, n, 0)
  }

  /** The shape of position p of roles `r` that start at token i: a kept
      token is not an operator, an operator is followed by its file name,
      and a file name follows an operator. */
  predicate ShapedAt(buf: seq<Token>, i: nat, r: seq<Role>, p: nat)
    requires i + |r| <= |buf| && p < |r|
  {
    && (r[p] == Keep ==> !IsRedirOp(buf[i + p]))
    && (r[p] == Op ==> IsRedirOp(buf[i + p]) && (p + 1 < |r| ==> r[p + 1] == Arg))
    && (r[p] == Arg ==> p > 0 && r[p - 1] == Op)
  }

  /** The roles read from left to right are well shaped at every position. */
  lemma {:induction false} RoleShape(buf: seq<Token>, n: nat, i: nat)
    requires n <= |buf| && i <= n
    ensures forall p :: 0 <= p < n - i ==> ShapedAt(buf, i, RolesFrom(buf, n, i), p)
    decreases n - i
  {
    if i < n {
      var r := RolesFrom(buf, n, i);
      if IsRedirOp(buf[i]) {
        if i + 1 < n {
          RoleShape(buf, n, i + 2);
          var rest := RolesFrom(buf, n, i + 2);
          assert r == [Op, Arg] + rest;
          forall p | 0 <= p < n - i
            ensures ShapedAt(buf, i, r, p)
          {
            if p >= 2 {
              assert ShapedAt(buf, i + 2, rest, p - 2);
              if p - 2 == 0 {
                RolesFromStartsWithNonArg(buf, n, i + 2);
              }
            }
          }
        }
      } else {
        RoleShape(buf, n, i + 1);
        var rest := RolesFrom(buf, n, i + 1);
        assert r == [Keep] + rest;
        forall p | 0 <= p < n - i
          ensures ShapedAt(buf, i, r, p)
        {
          if p >= 1 {
            assert ShapedAt(buf, i + 1, rest, p - 1);
            if p - 1 == 0 {
              RolesFromStartsWithNonArg(buf, n, i + 1);
            }
          }
        }
      }
    }
  }

  /** A scan never starts on a file name: the role at its start is Keep or Op. */
  lemma RolesFromStartsWithNonArg(buf: seq<Token>, n: nat, i: nat)
    requires n <= |buf| && i < n
    ensures RolesFrom(buf, n, i)[0] != Arg
  {
  }

  /** Without redirection operators every token is kept. */
  lemma {:induction false} NoRedirKeepsAll(buf: seq<Token>, n: nat, i: nat)
    requires n <= |buf| && i <= n
    requires forall p :: i <= p < n ==> !IsRedirOp(buf[p])
    ensures forall p :: 0 <= p < n - i ==> RolesFrom(buf, n, i)[p] == Keep
    ensures CountKeep(RolesFrom(buf, n, i)) == n - i
    decreases n - i
  {
    if i < n {
      NoRedirKeepsAll(buf, n, i + 1);
      assert RolesFrom(buf, n, i) == [Keep] + RolesFrom(buf, n, i + 1);
    }
  }

  /** How many tokens of the roles are kept, which is the count do_redir returns. */
  function CountKeep(rs: seq<Role>): (c: nat)
    ensures c <= |rs|
  {
    if |rs| == 0 then 0 else (if rs[0] == Keep then 1 else 0) + CountKeep(rs[1..])
  }

  /** CountKeep grows by one exactly when a kept role is appended. */
  lemma {:induction false} CountKeepSnoc(rs: seq<Role>, x: Role)
    ensures CountKeep(rs + [x]) == CountKeep(rs) + (if x == Keep then 1 else 0)
  {
    if |rs| > 0 {
      assert (rs + [x])[1..] == rs[1..] + [x];
      CountKeepSnoc(rs[1..], x);
    }
  }

  datatype Mode = ReadOnly | WriteOnly

  /** A descriptor: a number the caller already had, or the one Open
      returns for a file token and mode. */
  datatype Fd = Inherited(n: int) | OpenedFile(name: Token, mode: Mode)

  /** The descriptor after the first k positions: the one opened for the
      last operator `op` among them, or `init` when there is none. */
  function LastOpen(buf: seq<Token>, roles: seq<Role>, k: nat, op: Token, mode: Mode, init: Fd): Fd
    requires k <= |roles| < |buf|
  {
    if k == 0 then init
    else if roles[k - 1] == Op && buf[k - 1] == op then OpenedFile(buf[k], mode)
    else LastOpen(buf, roles, k - 1, op, mode, init)
  }

  /** With several redirections of one kind, the last one's file wins. */
  lemma {:induction false} LastOpenIsLast(buf: seq<Token>, roles: seq<Role>, k: nat, op: Token, mode: Mode,
                                          init: Fd, p: nat)
    requires k <= |roles| < |buf|
    requires p < k && roles[p] == Op && buf[p] == op
    requires forall q :: p < q < k ==> !(roles[q] == Op && buf[q] == op)
    ensures LastOpen(buf, roles, k, op, mode, init) == OpenedFile(buf[p + 1], mode)
  {
    if p < k - 1 {
      LastOpenIsLast(buf, roles, k - 1, op, mode, init, p);
    }
  }

  /** With no redirection of that kind, the caller's descriptor is kept. */
  lemma {:induction false} LastOpenNone(buf: seq<Token>, roles: seq<Role>, k: nat, op: Token, mode: Mode, init: Fd)
    requires k <= |roles| < |buf|
    requires forall q :: 0 <= q < k ==> !(roles[q] == Op && buf[q] == op)
    ensures LastOpen(buf, roles, k, op, mode, init) == init
  {
    if k > 0 {
      LastOpenNone(buf, roles, k - 1, op, mode, init);
    }
  }

  /** Position i clamped to the n tokens of the line: how far the scan has looked once the loop index is i. */
  function Seen(i: nat, n: nat): nat {
    if i <= n then i else n
  }

  /** The buffer after do_redir has looked at the first k tokens: positions
      below k hold the token when it is kept and T_NULL otherwise, the rest
      are untouched. */
  function Blanked(buf0: seq<Token>, roles: seq<Role>, k: nat): (r: seq<Token>)
    requires k <= |roles| <= |buf0|
    ensures |r| == |buf0|
    ensures forall p :: 0 <= p < k ==> r[p] == (if roles[p] == Keep then buf0[p] else Null)
    ensures forall p :: k <= p < |buf0| ==> r[p] == buf0[p]
  {
    seq(|buf0|, p requires 0 <= p < |buf0| => if p < k && roles[p] != Keep then Null else buf0[p])
  }

  /** Where do_redir meets an operator at i, it and the token after it
      (when there is one among the n) are the operator and its file name. */
  predicate OpAt(roles: seq<Role>, n: nat, i: nat)
    requires |roles| == n && i < n
  {
    roles[i] == Op && (i + 1 < n ==> roles[i + 1] == Arg)
  }

  /** An operator met by the scan at i claims the token after it, and the scan goes on at i + 2. */
  lemma OpRoles(buf0: seq<Token>, n: nat, roles: seq<Role>, i: nat)
    requires Terminated(buf0, n) && roles == Roles(buf0, n)
    requires i < n && RolesFrom(buf0, n, i) == roles[i..] && IsRedirOp(buf0[i])
    ensures OpAt(roles, n, i)
    ensures i + 1 < n ==> RolesFrom(buf0, n, i + 2) == roles[i + 2..]
  {
    assert roles[i..][0] == roles[i];
    if i + 1 < n {
      assert roles[i..] == [Op, Arg] + RolesFrom(buf0, n, i + 2);
      assert roles[i + 2..] == roles[i..][2..];
    }
  }

  /** Skipping an operator and its file name adds nothing to the kept count. */
  lemma OpCount(roles: seq<Role>, n: nat, i: nat)
    requires |roles| == n && i < n && OpAt(roles, n, i)
    ensures CountKeep(roles[..Seen(i + 2, n)]) == CountKeep(roles[..i])
  {
    assert roles[..i + 1] == roles[..i] + [roles[i]];
    CountKeepSnoc(roles[..i], roles[i]);
    if i + 1 < n {
      assert roles[..i + 2] == roles[..i + 1] + [roles[i + 1]];
      CountKeepSnoc(roles[..i + 1], roles[i + 1]);
    }
  }

  /** Skipping an operator blanks it and its file name, and keeps nothing. */
  lemma OpBuffers(buf0: seq<Token>, n: nat, roles: seq<Role>, i: nat)
    requires Terminated(buf0, n) && |roles| == n && i < n && OpAt(roles, n, i)
    ensures Blanked(buf0, roles, Seen(i + 2, n)) == Blanked(buf0, roles, i)[i := Null][i + 1 := Null]
    ensures KeptTokens(buf0, roles, Seen(i + 2, n)) == KeptTokens(buf0, roles, i)
  {
  }

  /** Skipping an operator sets the descriptor of its kind to its file and leaves the other one alone. */
  lemma OpOpens(buf0: seq<Token>, n: nat, roles: seq<Role>, i: nat, input0: Fd, output0: Fd)
    requires Terminated(buf0, n) && |roles| == n && i < n && OpAt(roles, n, i)
    ensures buf0[i] == Input ==>
              && LastOpen(buf0, roles, Seen(i + 2, n), Input, ReadOnly, input0) == OpenedFile(buf0[i + 1], ReadOnly)
              && LastOpen(buf0, roles, Seen(i + 2, n), Output, WriteOnly, output0)
                 == LastOpen(buf0, roles, i, Output, WriteOnly, output0)
    ensures buf0[i] == Output ==>
              && LastOpen(buf0, roles, Seen(i + 2, n), Output, WriteOnly, output0) == OpenedFile(buf0[i + 1], WriteOnly)
              && LastOpen(buf0, roles, Seen(i + 2, n), Input, ReadOnly, input0)
                 == LastOpen(buf0, roles, i, Input, ReadOnly, input0)
  {
  }


  /** One step of do_redir over a token that is not an operator: it is
      kept and no descriptor changes. */
  lemma KeepStep(buf0: seq<Token>, n: nat, roles: seq<Role>, i: nat, input0: Fd, output0: Fd)
    requires Terminated(buf0, n) && roles == Roles(buf0, n)
    requires i < n && RolesFrom(buf0, n, i) == roles[i..] && !IsRedirOp(buf0[i])
    ensures roles[i] == Keep
    ensures RolesFrom(buf0, n, i + 1) == roles[i + 1..]
    ensures CountKeep(roles[..i + 1]) == CountKeep(roles[..i]) + 1
    ensures Blanked(buf0, roles, i + 1) == Blanked(buf0, roles, i)
    ensures KeptTokens(buf0, roles, i + 1) == KeptTokens(buf0, roles, i) + [buf0[i]]
    ensures LastOpen(buf0, roles, i + 1, Input, ReadOnly, input0)
            == LastOpen(buf0, roles, i, Input, ReadOnly, input0)
    ensures LastOpen(buf0, roles, i + 1, Output, WriteOnly, output0)
            == LastOpen(buf0, roles, i, Output, WriteOnly, output0)
  {
    assert roles[i..] == [Keep] + RolesFrom(buf0, n, i + 1);
    assert roles[i + 1..] == roles[i..][1..];
    assert roles[..i + 1] == roles[..i] + [roles[i]];
    CountKeepSnoc(roles[..i], roles[i]);
  }

  /** What the scan of do_redir knows once it has looked at the tokens
      below i (i may pass n by one after an operator in the last position):
      the roles still to come, the number of kept tokens, and the input and
      output descriptors so far. */
  predicate Scanned(buf0: seq<Token>, n: nat, roles: seq<Role>, i: nat, count: nat, input: Fd, output: Fd,
                    input0: Fd, output0: Fd)
    requires Terminated(buf0, n) && roles == Roles(buf0, n)
  {
    && i <= n + 1
    && (i <= n ==> RolesFrom(buf0, n, i) == roles[i..])
    && count == CountKeep(roles[..Seen(i, n)]) && count <= Seen(i, n)
    && input == LastOpen(buf0, roles, Seen(i, n), Input, ReadOnly, input0)
    && output == LastOpen(buf0, roles, Seen(i, n), Output, WriteOnly, output0)
  }

  /** Before the loop nothing is scanned: count 0 and the caller's descriptors. */
  lemma ScanStart(buf0: seq<Token>, n: nat, input0: Fd, output0: Fd)
    requires Terminated(buf0, n)
    ensures Scanned(buf0, n, Roles(buf0, n), 0, 0, input0, output0, input0, output0)
  {
  }

  /** The scan over an operator at i skips its file name and opens it. */
  lemma ScanOp(buf0: seq<Token>, n: nat, roles: seq<Role>, i: nat, count: nat, input: Fd, output: Fd,
               input0: Fd, output0: Fd)
    requires Terminated(buf0, n) && roles == Roles(buf0, n)
    requires Scanned(buf0, n, roles, i, count, input, output, input0, output0)
    requires i < n && IsRedirOp(buf0[i])
    ensures OpAt(roles, n, i)
    ensures buf0[i] == Input ==>
              Scanned(buf0, n, roles, i + 2, count, OpenedFile(buf0[i + 1], ReadOnly), output, input0, output0)
    ensures buf0[i] == Output ==>
              Scanned(buf0, n, roles, i + 2, count, input, OpenedFile(buf0[i + 1], WriteOnly), input0, output0)
  {
    OpRoles(buf0, n, roles, i);
    OpCount(roles, n, i);
    OpOpens(buf0, n, roles, i, input0, output0);
  }

  /** The scan over any other token counts it. */
  lemma ScanKeep(buf0: seq<Token>, n: nat, roles: seq<Role>, i: nat, count: nat, input: Fd, output: Fd,
                 input0: Fd, output0: Fd)
    requires Terminated(buf0, n) && roles == Roles(buf0, n)
    requires Scanned(buf0, n, roles, i, count, input, output, input0, output0)
    requires i < n && !IsRedirOp(buf0[i])
    ensures roles[i] == Keep
    ensures Scanned(buf0, n, roles, i + 1, count + 1, input, output, input0, output0)
  {
    KeepStep(buf0, n, roles, i, input0, output0);
  }

  /** At the end of the scan everything is counted and opened. */
  lemma ScanDone(buf0: seq<Token>, n: nat, roles: seq<Role>, i: nat, count: nat, input: Fd, output: Fd,
                 input0: Fd, output0: Fd)
    requires Terminated(buf0, n) && roles == Roles(buf0, n)
    requires Scanned(buf0, n, roles, i, count, input, output, input0, output0) && i >= n
    ensures Seen(i, n) == n
    ensures count == CountKeep(roles) && count <= n
    ensures input == LastOpen(buf0, roles, n, Input, ReadOnly, input0)
    ensures output == LastOpen(buf0, roles, n, Output, WriteOnly, output0)
  {
    assert roles[..n] == roles;
  }

  /** do_redir as written: every operator and the token after it become
      T_NULL (the descriptor opened for the last input and output operator
      is kept), other tokens stay where they are, and NULL is written at the
      index returned, which counts the kept tokens.  Nothing is compacted,
      so that NULL can land on a kept token. */
  method DoRedirAsWritten(buf0: seq<Token>, n: nat, input0: Fd, output0: Fd)
    returns (buf: seq<Token>, count: nat, input: Fd, output: Fd)
    requires Terminated(buf0, n)
    ensures |buf| == |buf0|
    ensures count == CountKeep(Roles(buf0, n)) && count <= n
    ensures buf == Blanked(buf0, Roles(buf0, n), n)[count := Null]
    ensures input == LastOpen(buf0, Roles(buf0, n), n, Input, ReadOnly, input0)
    ensures output == LastOpen(buf0, Roles(buf0, n), n, Output, WriteOnly, output0)
  {
    ghost var roles := Roles(buf0, n);
    buf, count, input, output := buf0, 0, input0, output0;
    ScanStart(buf0, n, input0, output0);
    var i := 0;
    while i < n
      invariant Scanned(buf0, n, roles, i, count, input, output, input0, output0)
      invariant buf == Blanked(buf0, roles, Seen(i, n))
    {
      assert buf[i] == buf0[i] && buf[i + 1] == buf0[i + 1];
      if buf[i] == Input || buf[i] == Output {
        ScanOp(buf0, n, roles, i, count, input, output, input0, output0);
        OpBuffers(buf0, n, roles, i);
        if buf[i] == Input {
          input := OpenedFile(buf[i + 1], ReadOnly);
        } else {
          output := OpenedFile(buf[i + 1], WriteOnly);
        }
        buf := buf[i := Null][i + 1 := Null];
        i := i + 2;  // the body's own i++ and the loop's
      } else {
        ScanKeep(buf0, n, roles, i, count, input, output, input0, output0);
        KeepStep(buf0, n, roles, i, input0, output0);
        count := count + 1;
        i := i + 1;
      }
    }
    ScanDone(buf0, n, roles, i, count, input, output, input0, output0);
    buf := buf[count := Null];
  }


  /** The tokens do_redir keeps among the first k, in their order. */
  function KeptTokens(buf0: seq<Token>, roles: seq<Role>, k: nat): (r: seq<Token>)
    requires k <= |roles| <= |buf0|
    ensures |r| == CountKeep(roles[..k])
  {
    if k == 0 then []
    else
      assert roles[..k] == roles[..k - 1] + [roles[k - 1]];
      CountKeepSnoc(roles[..k - 1], roles[k - 1]);
      KeptTokens(buf0, roles, k - 1) + (if roles[k - 1] == Keep then [buf0[k - 1]] else [])
  }

  /** A command line whose redirections all come after its words: what
      do_redir leaves before its NULL is exactly the kept tokens. */
  lemma {:induction false} TrailingRedirectionsKept(buf0: seq<Token>, n: nat, m: nat, k: nat)
    requires Terminated(buf0, n) && m <= k <= n
    requires forall p :: 0 <= p < m ==> Roles(buf0, n)[p] == Keep
    requires forall p :: m <= p < n ==> Roles(buf0, n)[p] != Keep
    ensures KeptTokens(buf0, Roles(buf0, n), k) == buf0[..m]
    decreases k
  {
    var roles := Roles(buf0, n);
    if k > m {
      TrailingRedirectionsKept(buf0, n, m, k - 1);
    } else if k > 0 {
      TrailingRedirectionsPrefix(buf0, n, k);
    }
  }

  /** While every token so far is kept, the compacted prefix is the line itself. */
  lemma {:induction false} TrailingRedirectionsPrefix(buf0: seq<Token>, n: nat, k: nat)
    requires Terminated(buf0, n) && k <= n
    requires forall p :: 0 <= p < k ==> Roles(buf0, n)[p] == Keep
    ensures KeptTokens(buf0, Roles(buf0, n), k) == buf0[..k]
  {
    if k > 0 {
      TrailingRedirectionsPrefix(buf0, n, k - 1);
      assert buf0[..k] == buf0[..k - 1] + [buf0[k - 1]];
    }
  }

  /** In such a line the as-written do_redir already leaves the kept
      tokens, in order, in front of its NULL. */
  lemma AsWrittenAgreesOnTrailingRedirections(buf0: seq<Token>, n: nat, m: nat)
    requires Terminated(buf0, n) && m <= n
    requires forall p :: 0 <= p < m ==> Roles(buf0, n)[p] == Keep
    requires forall p :: m <= p < n ==> Roles(buf0, n)[p] != Keep
    ensures CountKeep(Roles(buf0, n)) == m
    ensures Blanked(buf0, Roles(buf0, n), n)[m := Null][..m] == KeptTokens(buf0, Roles(buf0, n), n)
  {
    TrailingRedirectionsKept(buf0, n, m, n);
    assert Roles(buf0, n)[..n] == Roles(buf0, n);
  }

  /** The as-written do_redir on `< in cat`: one token is kept, so NULL is
      written at index 1, and the word `cat` is not in front of that NULL:
      the buffer starts with a NULL and the command name is lost. */
  lemma LeadingRedirectionLosesCommand()
    ensures var buf0 := [Input, Word("in"), Word("cat"), Null];
            var roles := Roles(buf0, 3);
            && CountKeep(roles) == 1
            && KeptTokens(buf0, roles, 3) == [Word("cat")]
            && Blanked(buf0, roles, 3)[CountKeep(roles) := Null] == [Null, Null, Word("cat"), Null]
  {
    var buf0 := [Input, Word("in"), Word("cat"), Null];
    var roles := Roles(buf0, 3);
    assert roles == [Op, Arg, Keep];
    assert roles[..3] == roles;
    assert roles[..2] == [Op, Arg];
    assert roles[..1] == [Op];
  }

  /** Writing at or beyond c leaves the first c entries alone. */
  lemma PrefixAfterUpdate<T>(a: seq<T>, c: nat, k: nat, x: T)
    requires c <= k < |a|
    ensures a[k := x][..c] == a[..c]
  {
  }

  /** Writing x at c and cutting after it appends x to the first c entries. */
  lemma SnocAtUpdate<T>(a: seq<T>, c: nat, x: T)
    requires c < |a|
    ensures a[c := x][..c + 1] == a[..c] + [x]
  {
  }

  /** The buffer of the compacting do_redir once the tokens below i are
      scanned: the kept ones so far sit at the front, in order, and the
      tokens not yet scanned are untouched. */
  predicate Compacted(buf0: seq<Token>, n: nat, roles: seq<Role>, i: nat, buf: seq<Token>, count: nat)
    requires Terminated(buf0, n) && roles == Roles(buf0, n)
  {
    && |buf| == |buf0|
    && count <= Seen(i, n)
    && buf[..count] == KeptTokens(buf0, roles, Seen(i, n))
    && forall p :: Seen(i, n) <= p < |buf| ==> buf[p] == buf0[p]
  }

  /** The compacting loop's step over an operator keeps its invariant. */
  lemma CompactOp(buf0: seq<Token>, n: nat, roles: seq<Role>, i: nat, buf: seq<Token>, count: nat)
    requires Terminated(buf0, n) && roles == Roles(buf0, n)
    requires Compacted(buf0, n, roles, i, buf, count) && count <= i < n
    requires RolesFrom(buf0, n, i) == roles[i..] && IsRedirOp(buf0[i])
    ensures Compacted(buf0, n, roles, i + 2, buf[i := Null][i + 1 := Null], count)
  {
    OpRoles(buf0, n, roles, i);
    OpBuffers(buf0, n, roles, i);
    PrefixAfterUpdate(buf, count, i, Null);
    PrefixAfterUpdate(buf[i := Null], count, i + 1, Null);
  }

  /** The compacting loop's step over a kept token, moved down to count, keeps its invariant. */
  lemma CompactKeep(buf0: seq<Token>, n: nat, roles: seq<Role>, i: nat, buf: seq<Token>, count: nat)
    requires Terminated(buf0, n) && roles == Roles(buf0, n)
    requires Compacted(buf0, n, roles, i, buf, count) && count <= i < n
    requires RolesFrom(buf0, n, i) == roles[i..] && !IsRedirOp(buf0[i])
    ensures Compacted(buf0, n, roles, i + 1, buf[count := buf[i]], count + 1)
  {
    KeepStep(buf0, n, roles, i, Inherited(-1), Inherited(-1));
    SnocAtUpdate(buf, count, buf[i]);
  }

  /** do_redir as evidently intended: the same scan, but each kept token is
      moved down to the index that counts it, so the returned count of
      tokens, in order and followed by NULL, is the command without its
      redirections. */
  method DoRedir(buf0: seq<Token>, n: nat, input0: Fd, output0: Fd)
    returns (buf: seq<Token>, count: nat, input: Fd, output: Fd)
    requires Terminated(buf0, n)
    ensures |buf| == |buf0|
    ensures count == CountKeep(Roles(buf0, n)) && count <= n
    ensures buf[..count] == KeptTokens(buf0, Roles(buf0, n), n)
    ensures buf[count] == Null
    ensures input == LastOpen(buf0, Roles(buf0, n), n, Input, ReadOnly, input0)
    ensures output == LastOpen(buf0, Roles(buf0, n), n, Output, WriteOnly, output0)
  {
    ghost var roles := Roles(buf0, n);
    buf, count, input, output := buf0, 0, input0, output0;
    ScanStart(buf0, n, input0, output0);
    var i := 0;
    while i < n
      invariant Scanned(buf0, n, roles, i, count, input, output, input0, output0)
      invariant Compacted(buf0, n, roles, i, buf, count)
    {
      assert buf[i] == buf0[i] && buf[i + 1] == buf0[i + 1];
      if buf[i] == Input || buf[i] == Output {
        ScanOp(buf0, n, roles, i, count, input, output, input0, output0);
        CompactOp(buf0, n, roles, i, buf, count);
        if buf[i] == Input {
          input := OpenedFile(buf[i + 1], ReadOnly);
        } else {
          output := OpenedFile(buf[i + 1], WriteOnly);
        }
        buf := buf[i := Null][i + 1 := Null];
        i := i + 2;  // the body's own i++ and the loop's
      } else {
        ScanKeep(buf0, n, roles, i, count, input, output, input0, output0);
        CompactKeep(buf0, n, roles, i, buf, count);
        buf := buf[count := buf[i]];
        count := count + 1;
        i := i + 1;
      }
    }
    ScanDone(buf0, n, roles, i, count, input, output, input0, output0);
    PrefixAfterUpdate(buf, count, count, Null);
    buf := buf[count := Null];
  }



  /** The redirections are consumed: no kept token is an operator, and
      every kept token comes from the line. */
  lemma {:induction false} KeptTokensConsumeRedirections(buf0: seq<Token>, n: nat, k: nat)
    requires Terminated(buf0, n) && k <= n
    ensures forall x :: x in KeptTokens(buf0, Roles(buf0, n), k) ==> !IsRedirOp(x) && x in buf0[..k]
  {
    if k > 0 {
      KeptTokensConsumeRedirections(buf0, n, k - 1);
      RoleShape(buf0, n, 0);
      assert ShapedAt(buf0, 0, Roles(buf0, n), k - 1);
      assert buf0[..k] == buf0[..k - 1] + [buf0[k - 1]];
    }
  }

  /** Every kept token of a line of words and redirections is a word. */
  lemma KeptAreWords(buf0: seq<Token>, n: nat)
    requires Terminated(buf0, n)
    requires forall p :: 0 <= p < n ==> buf0[p].Word? || IsRedirOp(buf0[p])
    ensures forall x :: x in KeptTokens(buf0, Roles(buf0, n), n) ==> x.Word?
  {
    KeptTokensConsumeRedirections(buf0, n, n);
  }

  /** A line without redirections is kept whole and opens nothing. */
  lemma NoRedirectionKeepsLine(buf0: seq<Token>, n: nat, input0: Fd, output0: Fd)
    requires Terminated(buf0, n)
    requires forall p :: 0 <= p < n ==> !IsRedirOp(buf0[p])
    ensures CountKeep(Roles(buf0, n)) == n
    ensures KeptTokens(buf0, Roles(buf0, n), n) == buf0[..n]
    ensures LastOpen(buf0, Roles(buf0, n), n, Input, ReadOnly, input0) == input0
    ensures LastOpen(buf0, Roles(buf0, n), n, Output, WriteOnly, output0) == output0
  {
    NoRedirKeepsAll(buf0, n, 0);
    TrailingRedirectionsKept(buf0, n, n, n);
    LastOpenNone(buf0, Roles(buf0, n), n, Input, ReadOnly, input0);
    LastOpenNone(buf0, Roles(buf0, n), n, Output, WriteOnly, output0);
  }


  // ---------------------------------------------------- is_pipeline, eval

  predicate HasPipe(buf: seq<Token>, n: nat)
    requires n <= |buf|
  {
    exists i :: 0 <= i < n && buf[i] == Pipe
  }

  /** is_pipeline: scan the first n tokens for T_PIPE. */
  method IsPipeline(buf: seq<Token>, n: nat) returns (b: bool)
    requires n <= |buf|
    ensures b <==> HasPipe(buf, n)
  {
    var i := 0;
    while i < n
      invariant i <= n
      invariant forall k :: 0 <= k < i ==> buf[k] != Pipe
    {
      if buf[i] == Pipe {
        return true;
      }
      i := i + 1;
    }
    return false;
  }

  /** The first step of eval: a trailing T_BGJOB is dropped (the count goes
      down by one and its entry becomes NULL) and makes the job background;
      otherwise the tokens are left alone and the job is foreground. */
  function StripBackground(buf: seq<Token>, n: nat): (r: (seq<Token>, nat, bool))
    requires Terminated(buf, n)
    ensures Terminated(r.0, r.1)
    ensures r.2 <==> n > 0 && buf[n - 1] == BgJob
    ensures r.2 ==> r.1 == n - 1 && r.0 == buf[n - 1 := Null]
    ensures !r.2 ==> r.0 == buf && r.1 == n
  {
    if n > 0 && buf[n - 1] == BgJob then (buf[n - 1 := Null], n - 1, true) else (buf, n, false)
  }

  /** Where eval sends a command line. */
  datatype Dispatch =
    | Nothing
    | RunPipeline(buf: seq<Token>, n: nat, bg: bool)
    | RunJob(buf: seq<Token>, n: nat, bg: bool)

  /** eval: strip the background marker; nothing happens for zero tokens;
      a line with a pipe goes to do_pipeline, any other to do_job. */
  method Eval(buf0: seq<Token>, n0: nat) returns (d: Dispatch)
    requires Terminated(buf0, n0)
    ensures var (buf, n, bg) := StripBackground(buf0, n0);
            && (n == 0 <==> d.Nothing?)
            && (n > 0 && HasPipe(buf, n) ==> d == RunPipeline(buf, n, bg))
            && (n > 0 && !HasPipe(buf, n) ==> d == RunJob(buf, n, bg))
  {
    var (buf, n, bg) := StripBackground(buf0, n0);
    if n == 0 {
      return Nothing;
    }
    var pipe := IsPipeline(buf, n);
    if pipe {
      d := RunPipeline(buf, n, bg);
    } else {
      d := RunJob(buf, n, bg);
    }
  }

  // ---------------------------------------------------------------- do_job

  /** The argument vector a token buffer denotes: the words up to the first
      entry that is not a word (after do_redir that entry is its NULL). */
  function ArgWords(buf: seq<Token>): (r: seq<string>)
    ensures |r| <= |buf|
    ensures forall i :: 0 <= i < |r| ==> buf[i] == Word(r[i])
  {
    if |buf| == 0 || !buf[0].Word? then [] else [buf[0].text] + ArgWords(buf[1..])
  }

  /** Of a run of words, every one is an argument. */
  lemma {:induction false} ArgWordsAllWords(toks: seq<Token>)
    requires forall x :: x in toks ==> x.Word?
    ensures |ArgWords(toks)| == |toks|
  {
    if |toks| > 0 {
      ArgWordsAllWords(toks[1..]);
    }
  }

  /** The argument vector ends at the first entry that is not a word. */
  lemma {:induction false} ArgWordsStopAt(buf: seq<Token>, c: nat)
    requires c < |buf| && !buf[c].Word?
    requires forall p :: 0 <= p < c ==> buf[p].Word?
    ensures ArgWords(buf) == ArgWords(buf[..c])
  {
    if c > 0 {
      ArgWordsStopAt(buf[1..], c - 1);
      assert buf[1..][..c - 1] == buf[..c][1..];
    }
  }

  /** The argument vector of a command line once its redirections are
      consumed: its kept words. */
  function Argv(buf: seq<Token>, n: nat): seq<string>
    requires Terminated(buf, n)
  {
    ArgWords(KeptTokens(buf, Roles(buf, n), n))
  }

  /** argv[0] of a command line, or "" for a line without words. */
  function CommandName(buf: seq<Token>, n: nat): string
    requires Terminated(buf, n)
  {
    var argv := Argv(buf, n);
    if |argv| == 0 then "" else argv[0]
  }

  /** A command do_job can run: words and redirections only, with at least
      one word left once redirections are consumed (builtin_command
      compares argv[0] as a string, so it must not be NULL). */
  predicate SimpleCommand(buf: seq<Token>, n: nat) {
    && Terminated(buf, n)
    && (forall p :: 0 <= p < n ==> buf[p].Word? || IsRedirOp(buf[p]))
    && CountKeep(Roles(buf, n)) > 0
  }

  /** The argument vector of a simple command holds one argument for every
      kept token, and the kept tokens are exactly those words. */
  lemma ArgvOfCommand(buf: seq<Token>, n: nat)
    requires SimpleCommand(buf, n)
    ensures |Argv(buf, n)| == CountKeep(Roles(buf, n)) > 0
    ensures forall p :: 0 <= p < |Argv(buf, n)| ==> KeptTokens(buf, Roles(buf, n), n)[p] == Word(Argv(buf, n)[p])
  {
    KeptAreWords(buf, n);
    ArgWordsAllWords(KeptTokens(buf, Roles(buf, n), n));
    assert Roles(buf, n)[..n] == Roles(buf, n);
  }

  /** After the compacting do_redir, the words in front of its NULL are the
      command's argument vector. */
  lemma RedirectedArgv(buf0: seq<Token>, n0: nat, buf: seq<Token>, count: nat)
    requires SimpleCommand(buf0, n0)
    requires count < |buf| && buf[count] == Null
    requires buf[..count] == KeptTokens(buf0, Roles(buf0, n0), n0)
    ensures ArgWords(buf) == Argv(buf0, n0)
    ensures |Argv(buf0, n0)| > 0 && Argv(buf0, n0)[0] == CommandName(buf0, n0)
  {
    ArgvOfCommand(buf0, n0);
    assert Roles(buf0, n0)[..n0] == Roles(buf0, n0);
    assert forall p :: 0 <= p < count ==> buf[p] == buf[..count][p];
    ArgWordsStopAt(buf, count);
  }

  // ------------------------------------------------ do_job's argv as written

  /** The index of the first redirection operator among the first n tokens,
      or n when there is none. */
  function FirstRedir(buf: seq<Token>, n: nat): (p: nat)
    requires n <= |buf|
    ensures p <= n
    ensures forall q :: 0 <= q < p ==> !IsRedirOp(buf[q])
    ensures p < n ==> IsRedirOp(buf[p])
  {
    if n == 0 then 0
    else
      var p := FirstRedir(buf, n - 1);
      if p < n - 1 || IsRedirOp(buf[n - 1]) then p else n
  }

  /** A run of p kept roles in front gives at least p kept tokens. */
  lemma {:induction false} CountKeepAtLeast(rs: seq<Role>, p: nat)
    requires p <= |rs|
    requires forall q :: 0 <= q < p ==> rs[q] == Keep
    ensures CountKeep(rs) >= p
  {
    if p > 0 {
      CountKeepAtLeast(rs[1..], p - 1);
    }
  }

  /** Every token in front of the first redirection is kept, and the first
      redirection is read as an operator. */
  lemma KeptBeforeFirstRedir(buf: seq<Token>, n: nat)
    requires n <= |buf|
    ensures forall q :: 0 <= q < FirstRedir(buf, n) ==> Roles(buf, n)[q] == Keep
    ensures FirstRedir(buf, n) < n ==> Roles(buf, n)[FirstRedir(buf, n)] == Op
  {
    RoleShape(buf, n, 0);
    var p := FirstRedir(buf, n);
    var roles := Roles(buf, n);
    forall q | 0 <= q < p
      ensures roles[q] == Keep
    {
      assert ShapedAt(buf, 0, roles, q);
      if q > 0 {
        assert ShapedAt(buf, 0, roles, q - 1);
      }
    }
    if p < n {
      assert ShapedAt(buf, 0, roles, p);
    }
  }

  /** The argument vector of do_job as written: the words in front of the
      first redirection, since that is where the first NULL of the buffer
      falls once do_redir has blanked it. */
  function ArgvAsWritten(buf: seq<Token>, n: nat): seq<string>
    requires n <= |buf|
  {
    ArgWords(buf[..FirstRedir(buf, n)])
  }

  /** A command do_job runs without reading a NULL argv[0]: a simple command
      whose first token is a word, not a redirection. */
  predicate LeadsWithWord(buf: seq<Token>, n: nat) {
    SimpleCommand(buf, n) && buf[0].Word?
  }

  /** After the as-written do_redir, the words in front of the buffer's first
      NULL are those in front of the first redirection: none of the kept
      words that follow a redirection reaches argv. */
  lemma AsWrittenArgv(buf0: seq<Token>, n0: nat, buf: seq<Token>, count: nat)
    requires LeadsWithWord(buf0, n0)
    requires count == CountKeep(Roles(buf0, n0))
    requires buf == Blanked(buf0, Roles(buf0, n0), n0)[count := Null]
    ensures ArgWords(buf) == ArgvAsWritten(buf0, n0)
    ensures |ArgvAsWritten(buf0, n0)| == FirstRedir(buf0, n0) > 0
  {
    var roles := Roles(buf0, n0);
    var p := FirstRedir(buf0, n0);
    KeptBeforeFirstRedir(buf0, n0);
    CountKeepAtLeast(roles, p);
    BlankedFront(buf0, roles, n0, count, p);
    ArgWordsStopAt(buf, p);
    ArgWordsAllWords(buf0[..p]);
  }

  /** The blanked buffer keeps a run of kept tokens in front of an operator
      (or of the count) and has a NULL right after it. */
  lemma BlankedFront(buf0: seq<Token>, roles: seq<Role>, n: nat, count: nat, p: nat)
    requires n == |roles| && n < |buf0| && buf0[n] == Null
    requires p <= count <= n && p <= n
    requires forall q :: 0 <= q < p ==> roles[q] == Keep && buf0[q].Word?
    requires p < n ==> roles[p] == Op
    requires p == n ==> count == n
    ensures var buf := Blanked(buf0, roles, n)[count := Null];
            && buf[p] == Null
            && buf[..p] == buf0[..p]
            && (forall q :: 0 <= q < p ==> buf[q].Word?)
            && (forall x :: x in buf0[..p] ==> x.Word?)
  {
    var b := Blanked(buf0, roles, n);
    var buf := b[count := Null];
    assert forall q :: 0 <= q < p ==> b[q] == buf0[q];
    assert buf[..p] == b[..p];
  }

  /** The compacted tokens only grow as the scan goes on. */
  lemma {:induction false} KeptTokensPrefix(buf0: seq<Token>, roles: seq<Role>, j: nat, k: nat)
    requires j <= k <= |roles| <= |buf0|
    ensures KeptTokens(buf0, roles, j) <= KeptTokens(buf0, roles, k)
    decreases k
  {
    if j < k {
      KeptTokensPrefix(buf0, roles, j, k - 1);
    }
  }

  /** Of a run of words, the arguments of a prefix are a prefix of the
      arguments. */
  lemma ArgWordsPrefix(toks: seq<Token>, p: nat)
    requires p <= |toks|
    requires forall x :: x in toks ==> x.Word?
    ensures |ArgWords(toks)| == |toks|
    ensures ArgWords(toks[..p]) == ArgWords(toks)[..p]
  {
    ArgWordsAllWords(toks);
    ArgWordsAllWords(toks[..p]);
  }

  /** The as-written argument vector is the corrected one cut at the first
      redirection: the two differ exactly by the words that follow it. */
  lemma AsWrittenArgvIsPrefix(buf: seq<Token>, n: nat)
    requires SimpleCommand(buf, n)
    ensures FirstRedir(buf, n) <= |Argv(buf, n)|
    ensures ArgvAsWritten(buf, n) == Argv(buf, n)[..FirstRedir(buf, n)]
  {
    var roles := Roles(buf, n);
    var p := FirstRedir(buf, n);
    var kept := KeptTokens(buf, roles, n);
    KeptBeforeFirstRedir(buf, n);
    TrailingRedirectionsPrefix(buf, n, p);
    KeptTokensPrefix(buf, roles, p, n);
    assert kept[..p] == buf[..p];
    CountKeepAtLeast(roles, p);
    KeptAreWords(buf, n);
    ArgvOfCommand(buf, n);
    ArgWordsPrefix(kept, p);
  }

  /** `cat < in foo`: as written the job runs `cat` alone and is recorded
      as "cat"; with compaction it runs `cat foo`. */
  lemma RedirectionDropsLaterWords()
    ensures var buf := [Word("cat"), Input, Word("in"), Word("foo"), Null];
            && ArgvAsWritten(buf, 4) == ["cat"]
            && Argv(buf, 4) == ["cat", "foo"]
  {
    var buf := [Word("cat"), Input, Word("in"), Word("foo"), Null];
    var roles := Roles(buf, 4);
    assert roles == [Keep, Op, Arg, Keep];
    assert roles[..4] == roles;
    assert roles[..3] == [Keep, Op, Arg];
    assert roles[..2] == [Keep, Op];
    assert roles[..1] == [Keep];
    assert KeptTokens(buf, roles, 4) == [Word("cat"), Word("foo")];
    assert FirstRedir(buf, 4) == 1;
    assert buf[..1] == [Word("cat")];
  }

  /** The parent side of do_job: addjob then addproc register one running
      job whose group and only process are the child. */
  function Register(t: Jobs.Table, child: int, bg: bool, argv: seq<string>): (r: (Jobs.Table, nat))
    requires Jobs.Valid(t) && |argv| > 0
    ensures Jobs.Valid(r.0) && |r.0| == (if r.1 == |t| then |t| + 1 else |t|) && r.1 < |r.0|
    ensures r.0[r.1] == Jobs.Job(child, [Jobs.Proc(child, Jobs.Running, Jobs.NoExitCode)],
                                 Jobs.Running, Some(Strings.Join(argv, " ")))
    ensures !bg ==> r.1 == Jobs.FG
    ensures bg ==> Jobs.IsAllocSlot(t, r.1)
    ensures forall k :: 0 <= k < |t| && k != r.1 ==> r.0[k] == t[k]
  {
    var (t1, j) := Jobs.AddJob(t, child, bg);
    assert "" + Strings.Join(argv, " ") == Strings.Join(argv, " ");
    (Jobs.AddProc(t1, j, child, argv), j)
  }

  /** What do_job ends in: a built-in's outcome, or (on the parent side of
      the fork) the table with the new job registered, with the argument
      vector and descriptors the child receives. */
  datatype JobResult =
    | Builtin(outcome: Command.Outcome)
    | Launched(code: int, table: Jobs.Table, slot: nat, argv: seq<string>, input: Fd, output: Fd)

  /** argv[0] of do_job as written. */
  function CommandNameAsWritten(buf: seq<Token>, n: nat): string
    requires n <= |buf|
  {
    var argv := ArgvAsWritten(buf, n);
    if |argv| == 0 then "" else argv[0]
  }

  /** do_job as written: do_redir blanks the redirections in place, and the
      buffer is handed on as the argument vector, which therefore ends at
      the first redirection.  If builtin_command returns a value >= 0 that
      is the result and no job is registered.  Otherwise the command is
      forked (`child` is the pid fork returns to the parent) and one job
      with that pgid and a single process with that pid is registered; the
      value returned is then the -1 left by builtin_command. */
  method DoJob(t: Jobs.Table, buf0: seq<Token>, n0: nat, bg: bool, home: Option<string>,
               chdir: Option<string> -> bool, child: int) returns (r: JobResult)
    requires Jobs.Valid(t) && child > 0
    requires LeadsWithWord(buf0, n0)
    requires CommandNameAsWritten(buf0, n0) == "fg" ==> t[Jobs.FG].Free()
    requires CommandNameAsWritten(buf0, n0) == "jobs" ==> Jobs.Reportable(t, Jobs.All)
    ensures r.Builtin? <==> Command.RunsInShell(ArgvAsWritten(buf0, n0))
    ensures r.Builtin? ==> r.outcome == Command.BuiltinCommand(ArgvAsWritten(buf0, n0), t, home, chdir)
    ensures r.Builtin? && !r.outcome.QuitShell? ==> Command.Code(r.outcome) >= 0
    ensures r.Launched? ==>
              && r.code == -1
              && r.argv == ArgvAsWritten(buf0, n0)
              && Jobs.Valid(r.table) && |r.table| == (if r.slot == |t| then |t| + 1 else |t|) && r.slot < |r.table|
              && r.table[r.slot] == Jobs.Job(child, [Jobs.Proc(child, Jobs.Running, Jobs.NoExitCode)],
                                              Jobs.Running, Some(Strings.Join(r.argv, " ")))
              && (!bg ==> r.slot == Jobs.FG)
              && (bg ==> Jobs.IsAllocSlot(t, r.slot))
              && (forall k :: 0 <= k < |t| && k != r.slot ==> r.table[k] == t[k])
    ensures r.Launched? ==>
              && r.input == LastOpen(buf0, Roles(buf0, n0), n0, Input, ReadOnly, Inherited(-1))
              && r.output == LastOpen(buf0, Roles(buf0, n0), n0, Output, WriteOnly, Inherited(-1))
  {
    var buf, count, input, output := DoRedirAsWritten(buf0, n0, Inherited(-1), Inherited(-1));
    AsWrittenArgv(buf0, n0, buf, count);
    var argv := ArgWords(buf);
    var o := Command.BuiltinCommand(argv, t, home, chdir);
    if o.QuitShell? || Command.Code(o) >= 0 {
      return Builtin(o);
    }
    var (t2, j) := Register(t, child, bg, argv);
    r := Launched(Command.Code(o), t2, j, argv, input, output);
  }

  /** do_job with the compacting do_redir: the same steps, but every word
      that is not a redirection reaches the argument vector and the job's
      command text. */
  method DoJobIntended(t: Jobs.Table, buf0: seq<Token>, n0: nat, bg: bool, home: Option<string>,
                       chdir: Option<string> -> bool, child: int) returns (r: JobResult)
    requires Jobs.Valid(t) && child > 0
    requires SimpleCommand(buf0, n0)
    requires CommandName(buf0, n0) == "fg" ==> t[Jobs.FG].Free()
    requires CommandName(buf0, n0) == "jobs" ==> Jobs.Reportable(t, Jobs.All)
    ensures r.Builtin? <==> Command.RunsInShell(Argv(buf0, n0))
    ensures r.Builtin? ==> r.outcome == Command.BuiltinCommand(Argv(buf0, n0), t, home, chdir)
    ensures r.Builtin? && !r.outcome.QuitShell? ==> Command.Code(r.outcome) >= 0
    ensures r.Launched? ==>
              && r.code == -1
              && r.argv == Argv(buf0, n0)
              && Jobs.Valid(r.table) && |r.table| == (if r.slot == |t| then |t| + 1 else |t|) && r.slot < |r.table|
              && r.table[r.slot] == Jobs.Job(child, [Jobs.Proc(child, Jobs.Running, Jobs.NoExitCode)],
                                              Jobs.Running, Some(Strings.Join(r.argv, " ")))
              && (!bg ==> r.slot == Jobs.FG)
              && (bg ==> Jobs.IsAllocSlot(t, r.slot))
              && (forall k :: 0 <= k < |t| && k != r.slot ==> r.table[k] == t[k])
    ensures r.Launched? ==>
              && r.input == LastOpen(buf0, Roles(buf0, n0), n0, Input, ReadOnly, Inherited(-1))
              && r.output == LastOpen(buf0, Roles(buf0, n0), n0, Output, WriteOnly, Inherited(-1))
  {
    var buf, count, input, output := DoRedir(buf0, n0, Inherited(-1), Inherited(-1));
    RedirectedArgv(buf0, n0, buf, count);
    var argv := ArgWords(buf);
    var o := Command.BuiltinCommand(argv, t, home, chdir);
    if o.QuitShell? || Command.Code(o) >= 0 {
      return Builtin(o);
    }
    var (t2, j) := Register(t, child, bg, argv);
    r := Launched(Command.Code(o), t2, j, argv, input, output);
  }

}

=== FILE: strings.dfy ===
/** String helpers shared by the job table and the built-ins: joining with a
    separator, splitting at a character (strcspn), and atoi. */
module Strings {

  /** The elements of `ws` with `sep` between consecutive ones. */
  function Join(ws: seq<string>, sep: string): string
  {
    if |ws| == 0 then "" else if |ws| == 1 then ws[0] else ws[0] + sep + Join(ws[1..], sep)
  }

  lemma {:induction false} JoinSnoc(ws: seq<string>, w: string, sep: string)
    requires |ws| > 0
    ensures Join(ws + [w], sep) == Join(ws, sep) + sep + w
  {
    if |ws| == 1 {
      assert ws + [w] == [ws[0], w];
      assert (ws + [w])[1..] == [w];
    } else {
      assert (ws + [w])[1..] == ws[1..] + [w];
      JoinSnoc(ws[1..], w, sep);
    }
  }

  /** strcspn(s, [c]): the length of the longest prefix of `s` without `c`. */
  function Span(s: string, c: char): (k: nat)
    ensures k <= |s|
    ensures forall i :: 0 <= i < k ==> s[i] != c
    ensures k < |s| ==> s[k] == c
  {
    if |s| == 0 || s[0] == c then 0 else 1 + Span(s[1..], c)
  }

  /** The loop of mkcommand: each further word is appended after one space. */
  function AppendWords(acc: string, ws: seq<string>): string
    decreases |ws|
  {
    if |ws| == 0 then acc else AppendWords(acc + " " + ws[0], ws[1..])
  }

  lemma {:induction false} AppendWordsJoin(a: string, ws: seq<string>, vs: seq<string>)
    requires |ws| > 0
    ensures AppendWords(a + Join(ws, " "), vs) == a + Join(ws + vs, " ")
    decreases |vs|
  {
    if |vs| == 0 {
      assert ws + vs == ws;
    } else {
      JoinSnoc(ws, vs[0], " ");
      assert a + Join(ws, " ") + " " + vs[0] == a + Join(ws + [vs[0]], " ");
      AppendWordsJoin(a, ws + [vs[0]], vs[1..]);
      assert ws + [vs[0]] + vs[1..] == ws + vs;
    }
  }

  // ---------------------------------------------------------------- atoi

  predicate IsDigit(ch: char) {
    '0' <= ch <= '9'
  }

  predicate IsSpace(ch: char) {
    ch == ' ' || ch == '\t' || ch == '\n' || ch == '\r' || ch == '\U{B}' || ch == '\U{C}'
  }

  predicate AllDigits(s: string) {
    forall i :: 0 <= i < |s| ==> IsDigit(s[i])
  }

  /** The longest prefix of `s` made of decimal digits. */
  function LeadingDigits(s: string): (r: string)
    ensures |r| <= |s| && r == s[..|r|]
    ensures AllDigits(r)
    ensures |r| < |s| ==> !IsDigit(s[|r|])
  {
    if |s| == 0 || !IsDigit(s[0]) then "" else [s[0]] + LeadingDigits(s[1..])
  }

  /** The value of a string of decimal digits, most significant first. */
  function DigitsValue(ds: string): nat
    requires AllDigits(ds)
  {
    if |ds| == 0 then 0
    else DigitsValue(ds[..|ds| - 1]) * 10 + ((ds[|ds| - 1] as int) - ('0' as int))
  }

  function SkipSpace(s: string): string
  {
    if |s| > 0 && IsSpace(s[0]) then SkipSpace(s[1..]) else s
  }

  /** atoi: optional white space, an optional sign, then the leading decimal
      digits; anything else ends the number, and no digits give 0. */
  function Atoi(s: string): (r: int)
    ensures r < 0 ==> |SkipSpace(s)| > 0 && SkipSpace(s)[0] == '-'
    ensures AllDigits(s) ==> r == DigitsValue(s)
  {
    LeadingDigitsOfDigits(s);
    var t := SkipSpace(s);
    if |t| > 0 && t[0] == '-' then -(DigitsValue(LeadingDigits(t[1..])) as int)
    else if |t| > 0 && t[0] == '+' then DigitsValue(LeadingDigits(t[1..]))
    else DigitsValue(LeadingDigits(t))
  }

  /** The decimal text of a natural number, as printf("%d") writes it. */
  function ShowNat(n: nat): (s: string)
    ensures |s| > 0 && AllDigits(s)
  {
    (if n < 10 then "" else ShowNat(n / 10)) + [(('0' as int) + n % 10) as char]
  }

  lemma {:induction false} DigitsValueShowNat(n: nat)
    ensures DigitsValue(ShowNat(n)) == n
  {
    var s := ShowNat(n);
    ShowNatSplit(n);
    assert DigitsValue(s) == DigitsValue(s[..|s| - 1]) * 10 + ((s[|s| - 1] as int) - ('0' as int));
    if n >= 10 {
      DigitsValueShowNat(n / 10);
    }
  }

  /** The last character of ShowNat(n) is the digit n % 10, and the ones in
      front of it are ShowNat(n / 10) (nothing for a single digit). */
  lemma ShowNatSplit(n: nat)
    ensures var s := ShowNat(n);
            && s[..|s| - 1] == (if n < 10 then "" else ShowNat(n / 10))
            && (s[|s| - 1] as int) - ('0' as int) == n % 10
  {
    var s := ShowNat(n);
    assert s[|s| - 1] == (('0' as int) + n % 10) as char;
  }

  /** atoi reads back what printf wrote, for both signs. */
  lemma AtoiShowNat(n: nat)
    ensures Atoi(ShowNat(n)) == n
    ensures Atoi("-" + ShowNat(n)) == -(n as int)
  {
    DigitsValueShowNat(n);
    AtoiNegative(ShowNat(n));
  }

  /** A minus sign in front of decimal digits negates their value. */
  lemma AtoiNegative(s: string)
    requires AllDigits(s)
    ensures Atoi("-" + s) == -(DigitsValue(s) as int)
  {
    var m := "-" + s;
    assert SkipSpace(m) == m by {
      assert m[0] == '-';
    }
    assert m[1..] == s;
    LeadingDigitsOfDigits(s);
  }

  lemma LeadingDigitsOfDigits(s: string)
    ensures AllDigits(s) ==> LeadingDigits(s) == s
  {
  }

}

=== FILE: wait_status.dfy ===
/** The wait-status classification macros (WIFEXITED, WIFSIGNALED,
    WIFSTOPPED, WIFCONTINUED) as glibc defines them on Linux.  A status is
    the raw integer that waitpid stores; masking with 0x7f or 0xff is the
    same as Dafny's Euclidean remainder by 128 or 256, for every int. */
module WaitStatus {

  /** WIFEXITED: the low seven bits are zero. */
  predicate IfExited(status: int) {
    status % 128 == 0
  }

  /** WIFSIGNALED: the low seven bits name a signal (neither 0 nor 0x7f). */
  predicate IfSignaled(status: int) {
    0 < status % 128 < 127
  }

  /** WIFSTOPPED: the low byte is 0x7f. */
  predicate IfStopped(status: int) {
    status % 256 == 127
  }

  /** WIFCONTINUED: the status is exactly 0xffff. */
  predicate IfContinued(status: int) {
    status == 0xffff
  }

  /** The status of a child that called exit(code). */
  function ExitStatus(code: nat): (status: int)
    requires code < 256
    ensures IfExited(status) && !IfSignaled(status) && !IfStopped(status) && !IfContinued(status)
    ensures status / 256 == code
  {
    code * 256
  }

  /** At most one of the four classifications holds for any status, so the
      reaper's three independent tests never both fire on one event. */
  lemma Exclusive(status: int)
    ensures IfExited(status) ==> !IfSignaled(status) && !IfStopped(status) && !IfContinued(status)
    ensures IfSignaled(status) ==> !IfStopped(status) && !IfContinued(status)
    ensures IfStopped(status) ==> !IfContinued(status)
  {
    if IfStopped(status) {
      StoppedLowBits(status);
    }
  }

  /** A stopped status has 0x7f in its low seven bits as well. */
  lemma StoppedLowBits(status: int)
    requires status % 256 == 127
    ensures status % 128 == 127
  {
    var q := status / 256;
    assert status == q * 256 + 127;
    assert status == (2 * q) * 128 + 127;
  }

}
